=== FILE: README.md ===
# 3DE flow screen and folder tree: a Dafny model

3DE is an Electron code editor that shows source files as editor nodes on a React Flow canvas. Each
declaration in a file becomes a connection *handle*. Edges connect handles of different nodes. Group
nodes hold other nodes, with positions relative to the group. A side panel shows the project's
folder as a tree.

This project models two pure cores of that code.

* **The flow screen's state-update rules** (`src/screens/Flow/Flow.js`). Each React callback body is
  a function from the current nodes, edges and handles, plus the event's data, to new ones:
  * renaming a node's file;
  * replacing a node's selection handle;
  * merging a node's re-extracted handles into the screen's handle list;
  * resetting the node's edges;
  * moving a node into or out of a group when a drag stops;
  * the nodes created when a function handle is dragged out (`handleFunctionDrag`) or a
    connection is dropped (`onConnectEnd`).
* **The folder tree's flattening** (`src/components/FolderTree.jsx`). `flattenStructure` turns the
  nested directory listing into the id-keyed item map that `react-complex-tree` renders, starting
  from the `root` item in `BasicTree`.

Modules:

* `Wrappers`: `Option` and `Result`.
* `Seqs`: `Array.prototype.filter`, `find` and the stable `sort` used by the callbacks, as `Filter`,
  `Find` and `StablePartition`, with their laws.
* `Decimal`: `Number.prototype.toString` on the node counters (`nodes.length + 1`), used for node ids. Counters are far below 10^21, where JavaScript switches to exponent notation.
* `Graph`: the records — `Pos`, `Handle`, `Node`, `Edge`, `FlowState`.
* `Flow`: the callbacks.
* `FolderTree`: the flattening.

How the JavaScript is modelled:

* The helpers whose code lives elsewhere are fields of a `Collaborators` value. They are
  `getHandles`, `getNewEdges`, `createSelectionHandle`, `removeTextChunk` and `insertTextChunk`.
  As Dafny functions they are total and deterministic: they never throw, and the same arguments
  give the same result. Nothing else is assumed about them.
* The results of `getIntersectingNodes`, `screenToFlowPosition` and the DOM queries are inputs.
* JavaScript truthiness of `parentId` is spelled out: `null`, `undefined` and `''` all count as "no
  parent".
* A property read on `undefined` throws a `TypeError`. Each such case is a `Failure` of a `Result`.
  The model does not assume such a case away.
* The in-place mutations at `Flow.js:303-305` and `331-333` are functional record updates.

## Model

| member | source | states |
|---|---|---|
| Graph.UpdateById | src/screens/Flow/Flow.js:58-65 | `map` with an id test: same length; a node with the id is replaced by `f` of it; every other node is unchanged |
| Graph.FindNode | src/screens/Flow/Flow.js:142 | `find` by id: a found node is in the list, has the id, and is the first node with it; nothing is found exactly when no node has the id |
| Graph.FoundAt | src/screens/Flow/Flow.js:142 | the found node sits at an index before which no node has the id |
| Graph.SameIdsSameFind | src/screens/Flow/Flow.js:142 | lists with the same ids position by position find the same ids |
| Flow.OnFileNameChange | src/screens/Flow/Flow.js:57-65 | same length; nodes with the id get the new file name; all other fields, and all other nodes, are unchanged |
| Flow.FileNameLastWriteWins | src/screens/Flow/Flow.js:57-65 | renaming twice is renaming once to the last name |
| Flow.SelectionHandles | src/screens/Flow/Flow.js:82-108 | `null` selection: exactly the non-selection handles remain, in their old order. A selection: the created handle is last, and before it are exactly the non-selection handles in their old order |
| Flow.SelectionHandlesCounts | src/screens/Flow/Flow.js:86-88 | every non-selection handle is kept as often as it occurred, and no selection handle is kept; with the order fact this is the old list minus its selection handles |
| Flow.OnSelectionChange | src/screens/Flow/Flow.js:81-109 | same length; other nodes unchanged; a node with the id changes only its handles, to `SelectionHandles` |
| Flow.SelectionHandleUnique | src/screens/Flow/Flow.js:97-108 | with a selection, the node ends with exactly one selection handle, the created one, when `createSelectionHandle` makes a selection-type handle |
| Flow.SelectionChangeIdempotent | src/screens/Flow/Flow.js:81-109 | repeating the same selection gesture changes nothing, when the handle `createSelectionHandle` makes has selection type (otherwise the second gesture keeps the first handle and appends another) |
| Flow.SelectionHandlesIdempotent | src/screens/Flow/Flow.js:100-104 | the same for one node's handle list, under the same condition: the created handle has selection type |
| Flow.UpdateEdges | src/screens/Flow/Flow.js:130-138 | the result ends with `getNewEdges`' edges. Before them are exactly the old edges at neither end of the node, in their old order. Every edge at the node comes from the new edges |
| Flow.UpdateEdgesCounts | src/screens/Flow/Flow.js:134-136 | each old edge away from the node is kept as often as it occurred; none at the node is kept |
| Flow.UpdateEdgesIdempotent | src/screens/Flow/Flow.js:130-138 | resetting twice is resetting once when every re-created edge is at the node |
| Flow.MergeHandles | src/screens/Flow/Flow.js:160-166 | the result ends with the new handles. Before them are exactly the other nodes' handles, in order. Every handle of the node comes from the new ones |
| Flow.MergeHandlesCounts | src/screens/Flow/Flow.js:161-163 | each other node's handle is kept as often as it occurred |
| Flow.MergeHandlesSlices | src/screens/Flow/Flow.js:160-166 | afterwards the node's handles are exactly the new ones, when they all belong to it; every other node's handles are unchanged |
| Flow.OnTextChange | src/screens/Flow/Flow.js:141-168 | fails exactly when no node has the id (`node.data` on `undefined`). Otherwise it keeps the length and leaves other nodes unchanged. The node gets the new text and the handles `getHandles` extracts for its file name |
| Flow.TextChangeHandlesAndEdges | src/screens/Flow/Flow.js:160-166 | the new handle list is the merge. The edges are reset with the *other* nodes' handles as `getNewEdges`' "existing" argument |
| Flow.TextChangeNodeHandles | src/screens/Flow/Flow.js:146-157 | ids and order are kept; only nodes with the id change their handles, to the extracted ones |
| Flow.TextChangeSetsText | src/screens/Flow/Flow.js:146-157 | ids and order are kept; only nodes with the id change their text, to the new value |
| Flow.TextChangeKeepsHandlesInSync | src/screens/Flow/Flow.js:141-168 | when `getHandles` returns only the node's handles, afterwards the edited node's handles equal its slice of the handle list, and every other node that agreed still agrees |
| Flow.EditedNodeAgrees | src/screens/Flow/Flow.js:146-166 | the edited node holds exactly its slice of the merged list |
| Flow.OtherNodeAgrees | src/screens/Flow/Flow.js:146-166 | a node whose handles and slice are both unchanged stays in agreement |
| Flow.MoveInto | src/screens/Flow/Flow.js:301-308 | same length; the dragged node gets the group as parent, at its position minus the group's; all others are unchanged |
| Flow.Reparent | src/screens/Flow/Flow.js:298-320 | a permutation of the moved list (multiset) with every parentless node before every parented one, and each class in its old order |
| Flow.ReparentIsTheStableSort | src/screens/Flow/Flow.js:309-318 | any list that puts the parentless nodes first and keeps both classes in order equals `Reparent`: the stable sort's result is unique |
| Flow.MoveIntoMembers | src/screens/Flow/Flow.js:301-308 | every copy of the dragged node is in the group at the relative position; the other nodes are exactly the old ones |
| Flow.ReparentNodes | src/screens/Flow/Flow.js:298-320 | the same after the sort |
| Flow.Unparent | src/screens/Flow/Flow.js:328-337 | same order; the dragged node loses its parent and is placed at its position plus the old group's; all others are unchanged |
| Flow.OnNodeDragStop | src/screens/Flow/Flow.js:293-340 | fails exactly when no group is hit, the node has a parent, that parent is not among the nodes, and the node itself is (`oldGroupNode.position` on `undefined`) |
| Flow.ReparentOnDragInto | src/screens/Flow/Flow.js:298-320 | a drop on a group other than the node's parent reparents it |
| Flow.DragStopNoChange | src/screens/Flow/Flow.js:293-340 | a drop on the node's own group, or a parentless node dropped on the canvas, changes nothing |
| Flow.UnparentOnDragOut | src/screens/Flow/Flow.js:323-338 | a parented node dropped on the canvas, when its old group is among the nodes, is unparented at its position plus the group's |
| Flow.DragOutOfGroup | src/screens/Flow/Flow.js:323-338 | the same, with the group's position given |
| Flow.InGroup | src/screens/Flow/Flow.js:302-306 | the dragged node as stored after reparenting: same id, parent the group, and a relative position that gives back the absolute one when the group's position is added |
| Flow.MoveIntoIsInGroup | src/screens/Flow/Flow.js:302-306 | wherever the event's node stands in the list, the move stores it as `InGroup` |
| Flow.GroupSurvivesReparent | src/screens/Flow/Flow.js:299-320 | after reparenting, the group is still found at the same position |
| Flow.DragIntoGroupAndOutRestoresPosition | src/screens/Flow/Flow.js:298-338 | for a node that is on the canvas, dragging it into a group and back onto the canvas succeeds both times. The node is still there afterwards, parentless, at its original absolute position |
| Flow.ReparentKeepsDragged | src/screens/Flow/Flow.js:298-320 | reparenting keeps the dragged node in the list |
| Flow.NextIdFresh | src/screens/Flow/Flow.js:270 | `(nodes.length + 1).toString()` is unused while the ids so far are the counters `1..n` |
| Flow.ConnectionDropNode | src/screens/Flow/Flow.js:266-284 | the node a connection drop creates. Its id is a digit string that reads back as `n + 1`, and its file is `newFile-<id>.js`. Its text imports the handle's name from the source file. Its parent is the group's `data-id` when that is non-empty, else the source node's parent |
| Flow.FunctionDragNode | src/screens/Flow/Flow.js:204-216 | the node a function drag onto the pane creates: an id that reads back as `n + 1`, file `./<name>.js`, text `export ` + the cut chunk, no handles, no parent |
| Flow.DropLine | src/screens/Flow/Flow.js:229 | `Math.floor((y - targetY) / 16)`: the line whose 16-unit band holds the drop point |
| Flow.PaneDropIsTextChange | src/screens/Flow/Flow.js:203-239 | on the pane, the source is looked up in the nodes the callback read, without the new node; missing, it is a `TypeError`. Otherwise the new node is appended, then the text change is applied over the list that holds it |
| Flow.FunctionDragToPane | src/screens/Flow/Flow.js:194-239 | on the pane, with the source among the nodes, exactly one node is appended and the source holds the remaining text. The appended node is the exported chunk when `nodes.length + 1` is not the source's id. When it is, the text update also matches the appended node and overwrites its text with the source's remaining text, so the chunk is lost |
| Flow.AppendCollidingTextChange | src/screens/Flow/Flow.js:146-156 | a text change after appending a node with the edited id also rewrites the appended node's text |
| Flow.AppendThenTextChange | src/screens/Flow/Flow.js:203-239 | a text change after the new node is appended edits the source node and keeps the new node last, when the ids differ |
| Flow.FunctionDragOntoNode | src/screens/Flow/Flow.js:218-239 | on another editor node, the chunk is inserted into the target at the drop line; the source node holds the remaining text |
| Flow.HandleFunctionDrag | src/screens/Flow/Flow.js:184-240 | fails with `MissingEditorElement` exactly when the drop is on neither the pane, a group, nor an editor element. It fails exactly when the source node is not among the nodes, or when the drop is on neither the pane nor a group and the editor element is missing or names no node. On success there is one more node for a pane drop and the same number otherwise |
| Flow.InsertThenCutSucceeds | src/screens/Flow/Flow.js:218-239 | with the target found, the drop on an editor node succeeds exactly when the source node is among the nodes; the number of nodes is kept |
| Flow.InsertThenCutTexts | src/screens/Flow/Flow.js:231-239 | the two text changes of that drop land on their own nodes |
| Flow.FunctionDragOntoGroupDropsChunk | src/screens/Flow/Flow.js:197-239 | on a group, the lines are cut from the source and no node receives them |
| Flow.OnConnectEnd | src/screens/Flow/Flow.js:241-289 | a function handle hands the drop to `HandleFunctionDrag`. The callback fails exactly in two cases: a function-handle drop on neither the pane nor a group whose editor element is missing or names no node; or no source handle, with the drop on the pane or a group. Any other successful drop leaves edges and handles alone, keeps the old nodes as a prefix and adds at most one node |
| Flow.ConnectionDropAddsImportNode | src/screens/Flow/Flow.js:241-287 | a connection from a handle that is neither a function nor a selection, dropped on the pane or a group, appends one import node. Edges and handles are untouched |
| Flow.ConnectionDropIgnored | src/screens/Flow/Flow.js:256-264 | dropping a selection handle changes nothing. So does dropping any non-function handle, or none, on neither the pane nor a group |
| Flow.ConnectionDropMissingSource | src/screens/Flow/Flow.js:250-268 | on the pane or a group, a missing source node or handle is a `TypeError` |
| Seqs.Filter | src/screens/Flow/Flow.js:86-88 | `filter`: the kept elements are exactly those that pass, and it is never longer |
| Seqs.FilterCounts | src/screens/Flow/Flow.js:134-136 | `filter` keeps every occurrence of a passing element and none of a failing one |
| Seqs.FilterIsSubsequence | src/screens/Flow/Flow.js:161-163 | `filter` keeps the original order |
| Seqs.Find | src/screens/Flow/Flow.js:295 | `find`: the first passing element, or none exactly when none passes |
| Seqs.StablePartition | src/screens/Flow/Flow.js:310-318 | the comparator's stable sort: a permutation, with passing elements first and both classes in their old order |
| Seqs.StablePartitionUnique | src/screens/Flow/Flow.js:310-318 | that order is the only one with these properties |
| Decimal.NatToString | src/screens/Flow/Flow.js:270 | decimal digits, without a leading zero |
| Decimal.ParseNatToString | src/screens/Flow/Flow.js:270 | reading the digits back gives the number |
| Decimal.NatToStringInjective | src/screens/Flow/Flow.js:270 | distinct counters give distinct ids |
| FolderTree.Flatten | src/components/FolderTree.jsx:10-25 | the keys afterwards are the old keys plus every path at every depth; every other old key keeps its entry |
| FolderTree.FlattenItem | src/components/FolderTree.jsx:11-22 | one `forEach` step adds the item's path and its descendants' paths |
| FolderTree.FlattenItemIsEntry | src/components/FolderTree.jsx:12-21 | with fresh paths, one step appends the item's path to the parent and writes its complete entry. For a directory the entry lists its contents' paths; for a file it has no children. The descendants' entries are added too |
| FolderTree.FlattenIsEntries | src/components/FolderTree.jsx:10-25 | with distinct fresh paths, the parent's children gain the top-level paths in order, the old ones kept as a prefix. Exactly the entries of `Entries` are added: every item keyed by its path, with its own children in order |
| FolderTree.BasicTree | src/components/FolderTree.jsx:32-42 | the tree's keys are `root` plus every path at every depth |
| FolderTree.BasicTreeShape | src/components/FolderTree.jsx:32-42 | with distinct paths and none named `root`, the map is the root entry listing the top-level paths plus `Entries` |
| FolderTree.BasicTreeRoot | src/components/FolderTree.jsx:32-42 | when no path is `root`, the root's children are exactly the top-level paths, in order, repeated paths included |
| FolderTree.FlattenParentEntry | src/components/FolderTree.jsx:10-25 | when the parent key is none of the listing's paths, flattening appends the top-level paths to the parent's children and keeps the rest of its entry |
| FolderTree.FlattenItemParent | src/components/FolderTree.jsx:11-21 | one step appends the item's path to the parent's children, when the parent key is neither the item's path nor a path below it |
| FolderTree.TopIffParent | src/components/FolderTree.jsx:10-25 | for pairwise-distinct paths, none equal to the parent key, a path is top-level exactly when its parent in `Parents` is the listing's parent key |
| FolderTree.ChildIffParent | src/components/FolderTree.jsx:10-25 | for pairwise-distinct paths, none equal to the parent key, a path is in an entry's children exactly when that entry is its parent in `Parents` |
| FolderTree.BasicTreeChildIffParent | src/components/FolderTree.jsx:10-42 | the same for the whole tree, root included, for pairwise-distinct paths none of which is `root` |
| FolderTree.BasicTreeUniqueParent | src/components/FolderTree.jsx:10-42 | for pairwise-distinct paths none of which is `root`: every key except `root` is listed in the children of exactly one entry, and `root` is listed in none. A repeated path can be listed under two entries |

## Left out

- `onSettingsChanged` (`Flow.js:68-79`): a map over settings nodes that copies the settings record in. That record is not part of this model.
- `createNode` (`Flow.js:171-175`): unused; its only caller is commented out. It calls `createEditorNode`, whose code is not part of this model.
- `onoFileSelected` (`Flow.js:347-373`): Electron IPC file loading. The file's contents arrive asynchronously from the main process.
- The `dragend` window listener in `FolderTree.jsx:44-59`, the tree environment's props, and all JSX rendering: event and view plumbing.
- React state batching and `updateNodeInternals`. Two text changes in one drag apply in sequence.
- Flow.OnTextChange: reads the current nodes. In the JavaScript, an edit from an editor node calls `onTextChange` through the memoised `nodeTypes` (`Flow.js:111-128`, empty dependency list). That closure sees the `nodes` of the first render. So editing a node created after the first render finds no node at `Flow.js:142`, and `node.data` at `Flow.js:144` throws. Every editor node also calls `onTextChange(id, data.value)` once when it mounts (`src/components/nodes/EditorNode.js:35-37`). So in the JavaScript, every node created by a drop hits that `TypeError` as soon as it mounts. The model does not reproduce that failure: it finds the node and applies the edit.
- `handleSelectionDrag` and `onConnect`: empty bodies, modelled as "nothing changes".
- `src/components/Flow.js` and `src/components/nodes/EditorNode.js`: an older demo screen and Monaco widget glue, outside the modelled rules.
- The collaborators' behaviour: `getHandles`, `getNewEdges`, `createSelectionHandle`, `removeTextChunk` and `insertTextChunk`. Their code is not part of this model. Properties that depend on them state their assumption as a precondition.
- Collaborator failures and nondeterminism. The model's collaborators are total and deterministic functions. So a `RangeError` from `removeTextChunk` on bad line bounds is not modelled: in the JavaScript it aborts `handleFunctionDrag` before any state change. Neither is a `createSelectionHandle` that mints a fresh id on each call; such a function would give a different handle on a repeated gesture.
- State updates queued before a `TypeError`. A `Failure` stands for the whole callback throwing. In the JavaScript, a `setNodes` already queued before the throw still applies. Two cases: the appended node of a pane drop whose source is missing, and the target's text change in an editor-node drop whose source is missing. The model keeps neither.
- Positions are integers, not JavaScript doubles. `screenToFlowPosition` and `getIntersectingNodes` are inputs. `DropEvent.position` is the already converted drop point.
- The `origin` field of a connection-drop node (`[0.5, 0.0]`) and node `type` strings beyond the four kinds: presentation only.
- Flow.OnConnectEnd: `getAttribute('data-id')` is taken to return a string or be absent. A `null` attribute on a present element is not distinguished from a missing element.
- Flow.HandleFunctionDrag: its contract gives the failure cases and the node count. The texts each branch writes are stated by `FunctionDragToPane`, `FunctionDragOntoNode` and `FunctionDragOntoGroupDropsChunk`. It has three failure cases: a missing `.react-flow__node-editor` element, a target id that is not a node, and a source node that is not among the nodes the callback read (`node.data` at `Flow.js:144`, in every branch). The third cannot happen through `OnConnectEnd`, which only passes a node it found among the nodes.
- FolderTree.BasicTreeShape: the exact-map result assumes pairwise-distinct paths, none equal to `root`. Without that, later writes overwrite earlier entries in the JavaScript too. `Flatten`'s key-set contract holds with no such assumption.
- Flow.NextIdFresh: freshness is proved only for lists whose ids are the counters `1..n`. After a node is deleted, `nodes.length + 1` can repeat an existing id.

=== FILE: decimal.dfy ===
/** Decimal rendering of node counters: `(nodes.length + 1).toString()` produces node ids. The
    counters are array lengths plus one, far below 10^21, where JavaScript's rendering switches to
    exponent notation; that range is not modelled. */
module Decimal {

  predicate IsDigit(c: char)
  {
    '0' <= c <= '9'
  }

  /** The character for a single decimal digit. */
  function DigitChar(d: nat): (c: char)
    requires d < 10
    ensures IsDigit(c) && (c as int) - ('0' as int) == d
  {
    (('0' as int) + d) as char
  }

  /** `Number.prototype.toString` on a node counter (a non-negative integer below 10^21): its
      decimal digits, most significant first, with no leading zero. */
  function NatToString(n: nat): (s: string)
    ensures |s| >= 1
    ensures forall i :: 0 <= i < |s| ==> IsDigit(s[i])
    ensures s[0] == '0' <==> n == 0
    decreases n
  {
    if n < 10 then [DigitChar(n)] else NatToString(n / 10) + [DigitChar(n % 10)]
  }

  /** The value of a string of decimal digits. */
  function ParseNat(s: string): nat
    requires forall i :: 0 <= i < |s| ==> IsDigit(s[i])
  {
    if s == [] then 0
    else
      assert IsDigit(s[|s| - 1]);
      ParseNat(s[..|s| - 1]) * 10 + ((s[|s| - 1] as int) - ('0' as int))
  }

  /** Reading back a rendered counter gives the counter. */
  lemma {:induction false} ParseNatToString(n: nat)
    ensures ParseNat(NatToString(n)) == n
    decreases n
  {
    var s := NatToString(n);
    if n >= 10 {
      ParseNatToString(n / 10);
      assert s[..|s| - 1] == NatToString(n / 10);
    }
  }

  /** Distinct counters render to distinct ids. */
  lemma NatToStringInjective(a: nat, b: nat)
    ensures NatToString(a) == NatToString(b) <==> a == b
  {
    if NatToString(a) == NatToString(b) {
      ParseNatToString(a);
      ParseNatToString(b);
    }
  }
}

=== FILE: flow.dfy ===
/** The state-update rules of the flow screen: each React callback body is a function from the
    current nodes, edges and handles (and the event's data) to new ones. */
module Flow {
  import opened Wrappers
  import opened Seqs
  import opened Decimal
  import opened Graph

  /** A Monaco editor selection, as handed to the selection callback. */
  datatype Selection = Selection(startLine: int, startColumn: int, endLine: int, endColumn: int)

  /** The helpers the screen imports from the editor and screen utilities. Their code is not part
      of this model; they are given functions, so they are total (never throw) and deterministic
      (the same arguments give the same result), and nothing else is assumed about them. */
  datatype Collaborators = Collaborators(
    /** `getHandles(nodeId, fileName, text)`: the handles extracted from a node's text. */
    getHandles: (string, string, string) -> seq<Handle>,
    /** `getNewEdges(nodeId, existingHandles, newHandles)`: the edges to re-create after an edit. */
    getNewEdges: (string, seq<Handle>, seq<Handle>) -> seq<Edge>,
    /** `createSelectionHandle(nodeId, selection)`. */
    createSelectionHandle: (string, Selection) -> Handle,
    /** `removeTextChunk(text, startLine, endLine)`: `(updatedText, extractedChunk)`. */
    removeTextChunk: (string, int, int) -> (string, string),
    /** `insertTextChunk(text, chunk, line)`. */
    insertTextChunk: (string, string, int) -> string)

  // ---------------------------------------------------------------------------------------------
  // onFileNameChange

  /** Renames the file shown on every node with the given id. */
  function OnFileNameChange(nodes: seq<Node>, nodeId: string, fileName: string): (r: seq<Node>)
    ensures |r| == |nodes|
    ensures forall i :: 0 <= i < |r| ==>
      r[i].data.fileName == (if nodes[i].id == nodeId then fileName else nodes[i].data.fileName)
    ensures forall i :: 0 <= i < |r| ==>
      r[i] == nodes[i].(data := nodes[i].data.(fileName := r[i].data.fileName))
  {
    UpdateById(nodes, nodeId, (n: Node) => n.(data := n.data.(fileName := fileName)))
  }

  /** Renaming twice is renaming once to the last name. */
  lemma FileNameLastWriteWins(nodes: seq<Node>, nodeId: string, a: string, b: string)
    ensures OnFileNameChange(OnFileNameChange(nodes, nodeId, a), nodeId, b) == OnFileNameChange(nodes, nodeId, b)
  {
    var r1 := OnFileNameChange(nodes, nodeId, a);
    var r2 := OnFileNameChange(r1, nodeId, b);
    var r := OnFileNameChange(nodes, nodeId, b);
    forall i | 0 <= i < |r| ensures r2[i] == r[i] {
      assert r1[i].id == nodes[i].id;
    }
  }

  // ---------------------------------------------------------------------------------------------
  // onSelectionChange

  predicate IsSelection(h: Handle)
  {
    h.handleType == SelectionType
  }

  /** A node's handles after the selection gesture: every selection handle is dropped and, when
      there is a selection, one freshly created selection handle is appended. */
  function SelectionHandles(handles: seq<Handle>, nodeId: string, selection: Option<Selection>, co: Collaborators): (r: seq<Handle>)
    ensures selection.None? ==> forall h :: h in r <==> h in handles && !IsSelection(h)
    ensures selection.None? ==> IsSubsequence(r, handles)
    ensures selection.Some? ==> |r| >= 1 && r[|r| - 1] == co.createSelectionHandle(nodeId, selection.value)
    ensures selection.Some? ==> forall h :: h in r[..|r| - 1] <==> h in handles && !IsSelection(h)
    ensures selection.Some? ==> IsSubsequence(r[..|r| - 1], handles)
  {
    var kept := Filter(handles, Not(IsSelection));
    FilterIsSubsequence(handles, Not(IsSelection));
    match selection
    case None => kept
    case Some(sel) =>
      var r := kept + [co.createSelectionHandle(nodeId, sel)];
      assert r[..|r| - 1] == kept;
      r
  }

  /** The handles kept by the selection gesture are the non-selection ones with their
      multiplicities: together with the order fact above they are the old list minus its
      selection handles. */
  lemma SelectionHandlesCounts(handles: seq<Handle>, nodeId: string, selection: Option<Selection>, co: Collaborators)
    ensures var r := SelectionHandles(handles, nodeId, selection, co);
      var kept := if selection.Some? then r[..|r| - 1] else r;
      forall h :: multiset(kept)[h] == if IsSelection(h) then 0 else multiset(handles)[h]
  {
    var r := SelectionHandles(handles, nodeId, selection, co);
    var kept := Filter(handles, Not(IsSelection));
    FilterCounts(handles, Not(IsSelection));
    if selection.Some? {
      assert r == kept + [co.createSelectionHandle(nodeId, selection.value)];
      assert r[..|r| - 1] == kept;
    }
  }

  /** `onSelectionChange(nodeId, selection)`; `None` is the empty selection (`null`). */
  function OnSelectionChange(nodes: seq<Node>, nodeId: string, selection: Option<Selection>, co: Collaborators): (r: seq<Node>)
    ensures |r| == |nodes|
    ensures forall i :: 0 <= i < |r| && nodes[i].id != nodeId ==> r[i] == nodes[i]
    ensures forall i :: 0 <= i < |r| && nodes[i].id == nodeId ==>
      r[i] == nodes[i].(data := nodes[i].data.(handles := SelectionHandles(nodes[i].data.handles, nodeId, selection, co)))
  {
    UpdateById(nodes, nodeId,
      (n: Node) => n.(data := n.data.(handles := SelectionHandles(n.data.handles, nodeId, selection, co))))
  }

  /** With a selection, the node ends with exactly one selection handle, the last one, provided
      the collaborator creates a handle of selection type. */
  lemma SelectionHandleUnique(handles: seq<Handle>, nodeId: string, sel: Selection, co: Collaborators)
    requires IsSelection(co.createSelectionHandle(nodeId, sel))
    ensures Filter(SelectionHandles(handles, nodeId, Some(sel), co), IsSelection) == [co.createSelectionHandle(nodeId, sel)]
  {
    var kept := Filter(handles, Not(IsSelection));
    var h := co.createSelectionHandle(nodeId, sel);
    FilterConcat(kept, [h], IsSelection);
    FilterNoneKept(kept, IsSelection);
    assert Filter([h], IsSelection) == [h] + Filter([h][1..], IsSelection);
  }

  /** The selection gesture replaces rather than accumulates: repeating it changes nothing. */
  lemma SelectionChangeIdempotent(nodes: seq<Node>, nodeId: string, selection: Option<Selection>, co: Collaborators)
    requires selection.Some? ==> IsSelection(co.createSelectionHandle(nodeId, selection.value))
    ensures OnSelectionChange(OnSelectionChange(nodes, nodeId, selection, co), nodeId, selection, co)
         == OnSelectionChange(nodes, nodeId, selection, co)
  {
    var r1 := OnSelectionChange(nodes, nodeId, selection, co);
    var r2 := OnSelectionChange(r1, nodeId, selection, co);
    forall i | 0 <= i < |r1| ensures r2[i] == r1[i] {
      if nodes[i].id == nodeId {
        SelectionHandlesIdempotent(nodes[i].data.handles, nodeId, selection, co);
      }
    }
  }

  lemma SelectionHandlesIdempotent(handles: seq<Handle>, nodeId: string, selection: Option<Selection>, co: Collaborators)
    requires selection.Some? ==> IsSelection(co.createSelectionHandle(nodeId, selection.value))
    ensures SelectionHandles(SelectionHandles(handles, nodeId, selection, co), nodeId, selection, co)
         == SelectionHandles(handles, nodeId, selection, co)
  {
    var kept := Filter(handles, Not(IsSelection));
    var once := SelectionHandles(handles, nodeId, selection, co);
    SelectionHandlesUnfold(handles, nodeId, selection, co);
    SelectionHandlesUnfold(once, nodeId, selection, co);
    FilterIdempotent(handles, Not(IsSelection));
    if selection.Some? {
      var h := co.createSelectionHandle(nodeId, selection.value);
      FilterConcat(kept, [h], Not(IsSelection));
      FilterNoneKept([h], Not(IsSelection));
    }
  }

  /** The two cases of `SelectionHandles` spelled out. */
  lemma SelectionHandlesUnfold(handles: seq<Handle>, nodeId: string, selection: Option<Selection>, co: Collaborators)
    ensures SelectionHandles(handles, nodeId, selection, co)
         == Filter(handles, Not(IsSelection)) + (if selection.Some? then [co.createSelectionHandle(nodeId, selection.value)] else [])
  {
    assert Filter(handles, Not(IsSelection)) + [] == Filter(handles, Not(IsSelection));
  }

  // ---------------------------------------------------------------------------------------------
  // updateEdges and the handle merge of onTextChange

  /** Whether an edge has the node at either end. */
  predicate Touches(e: Edge, nodeId: string)
  {
    e.source == nodeId || e.target == nodeId
  }

  /** The `filter` predicate of `updateEdges`. */
  function Untouched(nodeId: string): Edge -> bool
  {
    (e: Edge) => !Touches(e, nodeId)
  }

  /** `updateEdges(nodeId, existingHandles, newHandles)`: every edge at the edited node is dropped
      and the edges `getNewEdges` computes are appended. */
  function UpdateEdges(edges: seq<Edge>, nodeId: string, existingHandles: seq<Handle>, newHandles: seq<Handle>, co: Collaborators): (r: seq<Edge>)
    ensures var added := co.getNewEdges(nodeId, existingHandles, newHandles);
      && |r| >= |added|
      && r[|r| - |added|..] == added
      && IsSubsequence(r[..|r| - |added|], edges)
      && (forall e :: e in r[..|r| - |added|] <==> e in edges && !Touches(e, nodeId))
      && (forall e :: e in r && Touches(e, nodeId) ==> e in added)
  {
    var added := co.getNewEdges(nodeId, existingHandles, newHandles);
    var kept := Filter(edges, Untouched(nodeId));
    FilterIsSubsequence(edges, Untouched(nodeId));
    var r := kept + added;
    assert r[..|r| - |added|] == kept && r[|r| - |added|..] == added;
    r
  }

  /** The edges kept by `updateEdges` are the ones away from the node, each as often as before. */
  lemma UpdateEdgesCounts(edges: seq<Edge>, nodeId: string, existingHandles: seq<Handle>, newHandles: seq<Handle>, co: Collaborators)
    ensures var r := UpdateEdges(edges, nodeId, existingHandles, newHandles, co);
      var added := co.getNewEdges(nodeId, existingHandles, newHandles);
      forall e :: multiset(r[..|r| - |added|])[e] == if Touches(e, nodeId) then 0 else multiset(edges)[e]
  {
    var r := UpdateEdges(edges, nodeId, existingHandles, newHandles, co);
    var added := co.getNewEdges(nodeId, existingHandles, newHandles);
    var kept := Filter(edges, Untouched(nodeId));
    FilterCounts(edges, Untouched(nodeId));
    assert r == kept + added;
    assert r[..|r| - |added|] == kept;
  }

  /** Resetting the edges of a node twice is resetting them once, when every re-created edge is
      at that node. */
  lemma UpdateEdgesIdempotent(edges: seq<Edge>, nodeId: string, existingHandles: seq<Handle>, newHandles: seq<Handle>, co: Collaborators)
    requires forall e :: e in co.getNewEdges(nodeId, existingHandles, newHandles) ==> Touches(e, nodeId)
    ensures UpdateEdges(UpdateEdges(edges, nodeId, existingHandles, newHandles, co), nodeId, existingHandles, newHandles, co)
         == UpdateEdges(edges, nodeId, existingHandles, newHandles, co)
  {
    var added := co.getNewEdges(nodeId, existingHandles, newHandles);
    var kept := Filter(edges, Untouched(nodeId));
    var r1 := UpdateEdges(edges, nodeId, existingHandles, newHandles, co);
    assert r1 == kept + added;
    FilterConcat(kept, added, Untouched(nodeId));
    FilterIdempotent(edges, Untouched(nodeId));
    FilterNoneKept(added, Untouched(nodeId));
  }

  /** The `filter` predicate `handle => handle.nodeId === nodeId`. */
  function OwnedBy(nodeId: string): Handle -> bool
  {
    (h: Handle) => h.nodeId == nodeId
  }

  /** The merge in `onTextChange`: the other nodes' handles, in order, then the new ones. */
  function MergeHandles(handles: seq<Handle>, nodeId: string, newHandles: seq<Handle>): (r: seq<Handle>)
    ensures |r| >= |newHandles| && r[|r| - |newHandles|..] == newHandles
    ensures IsSubsequence(r[..|r| - |newHandles|], handles)
    ensures forall h :: h in r[..|r| - |newHandles|] <==> h in handles && h.nodeId != nodeId
    ensures forall h :: h in r && h.nodeId == nodeId ==> h in newHandles
  {
    var kept := Filter(handles, Not(OwnedBy(nodeId)));
    FilterIsSubsequence(handles, Not(OwnedBy(nodeId)));
    var r := kept + newHandles;
    assert r[..|r| - |newHandles|] == kept && r[|r| - |newHandles|..] == newHandles;
    r
  }

  /** The merge keeps every other node's handle as often as it occurred. */
  lemma MergeHandlesCounts(handles: seq<Handle>, nodeId: string, newHandles: seq<Handle>)
    ensures var r := MergeHandles(handles, nodeId, newHandles);
      forall h :: multiset(r[..|r| - |newHandles|])[h] == if h.nodeId == nodeId then 0 else multiset(handles)[h]
  {
    var r := MergeHandles(handles, nodeId, newHandles);
    var kept := Filter(handles, Not(OwnedBy(nodeId)));
    FilterCounts(handles, Not(OwnedBy(nodeId)));
    assert r == kept + newHandles;
    assert r[..|r| - |newHandles|] == kept;
  }

  /** After the merge the edited node's slice of the handle list is exactly the new handles, and
      every other node's slice is unchanged, provided the new handles all belong to the node. */
  lemma MergeHandlesSlices(handles: seq<Handle>, nodeId: string, newHandles: seq<Handle>, other: string)
    requires forall h :: h in newHandles ==> h.nodeId == nodeId
    requires other != nodeId
    ensures Filter(MergeHandles(handles, nodeId, newHandles), OwnedBy(nodeId)) == newHandles
    ensures Filter(MergeHandles(handles, nodeId, newHandles), OwnedBy(other)) == Filter(handles, OwnedBy(other))
  {
    var kept := Filter(handles, Not(OwnedBy(nodeId)));
    assert MergeHandles(handles, nodeId, newHandles) == kept + newHandles;
    FilterConcat(kept, newHandles, OwnedBy(nodeId));
    FilterNoneKept(kept, OwnedBy(nodeId));
    FilterAllKept(newHandles, OwnedBy(nodeId));
    FilterConcat(kept, newHandles, OwnedBy(other));
    FilterNarrowing(handles, Not(OwnedBy(nodeId)), OwnedBy(other));
    FilterNoneKept(newHandles, OwnedBy(other));
  }

  // ---------------------------------------------------------------------------------------------
  // onTextChange

  /** The handles extracted for a node's new text; `getHandles` is given the file name of the
      first node with that id. */
  function NewHandles(nodes: seq<Node>, nodeId: string, value: string, co: Collaborators): seq<Handle>
    requires FindNode(nodes, nodeId).Some?
  {
    co.getHandles(nodeId, FindNode(nodes, nodeId).value.data.fileName, value)
  }

  /** `onTextChange(nodeId, value)`: stores the text and its extracted handles on the node, merges
      those handles into the handle list and resets the node's edges. Looking up a missing node is
      the TypeError of `node.data`. */
  function OnTextChange(st: FlowState, nodeId: string, value: string, co: Collaborators): (r: Result<FlowState, Error>)
    ensures r.Failure? <==> forall n :: n in st.nodes ==> n.id != nodeId
    ensures r.Success? ==> |r.value.nodes| == |st.nodes|
    ensures r.Success? ==> forall i :: 0 <= i < |st.nodes| && st.nodes[i].id != nodeId ==> r.value.nodes[i] == st.nodes[i]
    ensures r.Success? ==> var hs := NewHandles(st.nodes, nodeId, value, co);
      forall i :: 0 <= i < |st.nodes| && st.nodes[i].id == nodeId ==>
        r.value.nodes[i] == st.nodes[i].(data := st.nodes[i].data.(value := value, handles := hs))
  {
    match FindNode(st.nodes, nodeId)
    case None => Failure(NodeNotFound)
    case Some(node) =>
      var hs := co.getHandles(nodeId, node.data.fileName, value);
      var nodes := UpdateById(st.nodes, nodeId, (n: Node) => n.(data := n.data.(value := value, handles := hs)));
      var existing := Filter(st.handles, Not(OwnedBy(nodeId)));
      Success(FlowState(nodes, UpdateEdges(st.edges, nodeId, existing, hs, co), MergeHandles(st.handles, nodeId, hs)))
  }

  /** The handle and edge lists after a text change: the node's extracted handles replace its old
      ones in the handle list, and its edges are reset from `getNewEdges`, which is handed the
      handles of the OTHER nodes as its "existing" argument. */
  lemma TextChangeHandlesAndEdges(st: FlowState, nodeId: string, value: string, co: Collaborators)
    requires FindNode(st.nodes, nodeId).Some?
    ensures var r := OnTextChange(st, nodeId, value, co);
      var hs := NewHandles(st.nodes, nodeId, value, co);
      && r.Success?
      && r.value.handles == MergeHandles(st.handles, nodeId, hs)
      && r.value.edges == UpdateEdges(st.edges, nodeId, Filter(st.handles, Not(OwnedBy(nodeId))), hs, co)
  {
  }

  /** A node's handles agree with its slice of the screen's handle list. */
  ghost predicate HandlesAgree(st: FlowState, id: string)
  {
    forall n :: n in st.nodes && n.id == id ==> n.data.handles == Filter(st.handles, OwnedBy(id))
  }

  /** A text change leaves the edited node's handles in agreement with the handle list, and keeps
      the agreement of every other node, provided `getHandles` only returns handles of the node. */
  lemma TextChangeKeepsHandlesInSync(st: FlowState, nodeId: string, value: string, co: Collaborators, other: string)
    requires FindNode(st.nodes, nodeId).Some?
    requires forall h :: h in NewHandles(st.nodes, nodeId, value, co) ==> h.nodeId == nodeId
    requires other != nodeId && HandlesAgree(st, other)
    ensures OnTextChange(st, nodeId, value, co).Success?
    ensures HandlesAgree(OnTextChange(st, nodeId, value, co).value, nodeId)
    ensures HandlesAgree(OnTextChange(st, nodeId, value, co).value, other)
  {
    var hs := NewHandles(st.nodes, nodeId, value, co);
    var r := TextChangeNodeHandles(st, nodeId, value, co);
    MergeHandlesSlices(st.handles, nodeId, hs, other);
    EditedNodeAgrees(st, nodeId, hs, r);
    OtherNodeAgrees(st, nodeId, other, r);
  }

  /** The edited node holds exactly its slice of the new handle list. */
  lemma EditedNodeAgrees(st: FlowState, nodeId: string, hs: seq<Handle>, r: FlowState)
    requires Filter(r.handles, OwnedBy(nodeId)) == hs
    requires |r.nodes| == |st.nodes|
    requires forall i :: 0 <= i < |st.nodes| ==> r.nodes[i].id == st.nodes[i].id
    requires forall i :: 0 <= i < |st.nodes| && st.nodes[i].id == nodeId ==> r.nodes[i].data.handles == hs
    ensures HandlesAgree(r, nodeId)
  {
    forall n | n in r.nodes && n.id == nodeId ensures n.data.handles == Filter(r.handles, OwnedBy(nodeId)) {
      var i :| 0 <= i < |r.nodes| && r.nodes[i] == n;
    }
  }

  /** A node whose handles and slice are both unchanged stays in agreement. */
  lemma OtherNodeAgrees(st: FlowState, nodeId: string, other: string, r: FlowState)
    requires other != nodeId && HandlesAgree(st, other)
    requires Filter(r.handles, OwnedBy(other)) == Filter(st.handles, OwnedBy(other))
    requires |r.nodes| == |st.nodes|
    requires forall i :: 0 <= i < |st.nodes| ==> r.nodes[i].id == st.nodes[i].id
    requires forall i :: 0 <= i < |st.nodes| && st.nodes[i].id != nodeId ==> r.nodes[i].data.handles == st.nodes[i].data.handles
    ensures HandlesAgree(r, other)
  {
    forall n | n in r.nodes && n.id == other ensures n.data.handles == Filter(r.handles, OwnedBy(other)) {
      var i :| 0 <= i < |r.nodes| && r.nodes[i] == n;
      assert st.nodes[i] in st.nodes;
    }
  }

  /** The handle part of `onTextChange`: ids and order are kept, only the edited nodes' handles
      change, and the handle list is the merge. */
  lemma TextChangeNodeHandles(st: FlowState, nodeId: string, value: string, co: Collaborators) returns (r: FlowState)
    requires FindNode(st.nodes, nodeId).Some?
    ensures OnTextChange(st, nodeId, value, co) == Success(r)
    ensures r.handles == MergeHandles(st.handles, nodeId, NewHandles(st.nodes, nodeId, value, co))
    ensures |r.nodes| == |st.nodes|
    ensures forall i :: 0 <= i < |st.nodes| ==> r.nodes[i].id == st.nodes[i].id
    ensures forall i :: 0 <= i < |st.nodes| ==>
      r.nodes[i].data.handles == (if st.nodes[i].id == nodeId then NewHandles(st.nodes, nodeId, value, co) else st.nodes[i].data.handles)
  {
    r := OnTextChange(st, nodeId, value, co).value;
  }

  // ---------------------------------------------------------------------------------------------
  // onNodeDragStop

  predicate IsGroup(n: Node)
  {
    n.kind == Group
  }

  /** The sort key of `onNodeDragStop`: nodes without a parent come first. */
  predicate Unparented(n: Node)
  {
    !HasParent(n)
  }

  /** The dragged node moved into `group`, its position made relative to the group. */
  function MoveInto(nodes: seq<Node>, node: Node, group: Node): (r: seq<Node>)
    ensures |r| == |nodes|
    ensures forall i :: 0 <= i < |r| && nodes[i].id != node.id ==> r[i] == nodes[i]
    ensures forall i :: 0 <= i < |r| && nodes[i].id == node.id ==>
      r[i] == nodes[i].(parentId := Some(group.id), position := node.position.Minus(group.position))
  {
    UpdateById(nodes, node.id,
      (s: Node) => s.(parentId := Some(group.id), position := node.position.Minus(group.position)))
  }

  /** Reparenting onto a group: the dragged node takes the group as parent with a group-relative
      position, then the list is stably sorted so that parentless nodes come first. */
  function Reparent(nodes: seq<Node>, node: Node, group: Node): (r: seq<Node>)
    ensures |r| == |nodes|
    ensures multiset(r) == multiset(MoveInto(nodes, node, group))
    ensures SortedBy(r, Unparented)
    ensures Filter(r, Unparented) == Filter(MoveInto(nodes, node, group), Unparented)
    ensures Filter(r, Not(Unparented)) == Filter(MoveInto(nodes, node, group), Not(Unparented))
  {
    var moved := MoveInto(nodes, node, group);
    var r := StablePartition(moved, Unparented);
    assert |r| == |multiset(r)| == |multiset(moved)| == |moved|;
    r
  }

  /** `Reparent` is the only order a stable sort by the comparator can produce: any list that puts
      the parentless nodes first and keeps each class in its old order is `Reparent`'s result. */
  lemma ReparentIsTheStableSort(nodes: seq<Node>, node: Node, group: Node, sorted: seq<Node>)
    requires SortedBy(sorted, Unparented)
    requires Filter(sorted, Unparented) == Filter(MoveInto(nodes, node, group), Unparented)
    requires Filter(sorted, Not(Unparented)) == Filter(MoveInto(nodes, node, group), Not(Unparented))
    ensures sorted == Reparent(nodes, node, group)
  {
    StablePartitionUnique(MoveInto(nodes, node, group), sorted, Unparented);
  }

  /** Moving into a group touches only the dragged node. */
  lemma MoveIntoMembers(nodes: seq<Node>, node: Node, group: Node)
    ensures forall m :: m in MoveInto(nodes, node, group) && m.id == node.id ==>
      m.parentId == Some(group.id) && m.position == node.position.Minus(group.position)
    ensures forall m: Node :: m.id != node.id ==> (m in MoveInto(nodes, node, group) <==> m in nodes)
  {
    var moved := MoveInto(nodes, node, group);
    forall m: Node | m.id != node.id ensures m in moved <==> m in nodes {
      if m in nodes {
        var i :| 0 <= i < |nodes| && nodes[i] == m;
        assert moved[i] == m;
      }
      if m in moved {
        var i :| 0 <= i < |moved| && moved[i] == m;
        assert nodes[i].id != node.id;
      }
    }
  }

  /** What reparenting does to individual nodes: every copy of the dragged node is in the group at
      the relative position, and the other nodes are exactly the old ones. */
  lemma ReparentNodes(nodes: seq<Node>, node: Node, group: Node)
    ensures forall m :: m in Reparent(nodes, node, group) && m.id == node.id ==>
      m.parentId == Some(group.id) && m.position == node.position.Minus(group.position)
    ensures forall m: Node :: m.id != node.id ==> (m in Reparent(nodes, node, group) <==> m in nodes)
  {
    var moved := MoveInto(nodes, node, group);
    var r := Reparent(nodes, node, group);
    MoveIntoMembers(nodes, node, group);
    forall m: Node ensures m in r <==> m in moved {
      assert m in r <==> m in multiset(r);
      assert m in moved <==> m in multiset(moved);
    }
  }

  /** Moving out of a group: the dragged node loses its parent and gets an absolute position. */
  function Unparent(nodes: seq<Node>, node: Node, oldGroup: Node): (r: seq<Node>)
    ensures |r| == |nodes|
    ensures forall i :: 0 <= i < |r| && nodes[i].id != node.id ==> r[i] == nodes[i]
    ensures forall i :: 0 <= i < |r| && nodes[i].id == node.id ==>
      r[i] == nodes[i].(parentId := None, position := node.position.Plus(oldGroup.position))
  {
    UpdateById(nodes, node.id,
      (s: Node) => s.(parentId := None, position := node.position.Plus(oldGroup.position)))
  }

  /** `onNodeDragStop(event, node)`. `intersections` is what `getIntersectingNodes(node)` returns;
      the first group among them is the drop target. Dragging a parented node out onto the canvas
      when its parent is not among the nodes is the TypeError of `oldGroupNode.position`. */
  function OnNodeDragStop(nodes: seq<Node>, node: Node, intersections: seq<Node>): (r: Result<seq<Node>, Error>)
    ensures r.Failure? <==> Find(intersections, IsGroup).None? && HasParent(node)
                            && FindNode(nodes, node.parentId.value).None? && exists m :: m in nodes && m.id == node.id
  {
    var group := Find(intersections, IsGroup);
    if group.Some? && node.parentId != Some(group.value.id) then
      Success(Reparent(nodes, node, group.value))
    else if group.None? && HasParent(node) then
      match FindNode(nodes, node.parentId.value)
      case Some(oldGroup) => Success(Unparent(nodes, node, oldGroup))
      case None => if FindNode(nodes, node.id).Some? then Failure(NodeNotFound) else Success(nodes)
    else
      Success(nodes)
  }

  /** A drop on the group the node already belongs to, or a parentless node dropped on the bare
      canvas, changes nothing. */
  lemma DragStopNoChange(nodes: seq<Node>, node: Node, intersections: seq<Node>)
    requires var group := Find(intersections, IsGroup);
      || (group.Some? && node.parentId == Some(group.value.id))
      || (group.None? && !HasParent(node))
    ensures OnNodeDragStop(nodes, node, intersections) == Success(nodes)
  {
  }

  /** Unparenting keeps the order of the nodes and gives the dragged node the absolute position of
      its old group plus its relative position. */
  lemma UnparentOnDragOut(nodes: seq<Node>, node: Node, intersections: seq<Node>, oldGroup: Node)
    requires Find(intersections, IsGroup).None? && HasParent(node)
    requires FindNode(nodes, node.parentId.value) == Some(oldGroup)
    ensures OnNodeDragStop(nodes, node, intersections) == Success(Unparent(nodes, node, oldGroup))
    ensures forall m :: m in Unparent(nodes, node, oldGroup) && m.id == node.id ==>
      m.parentId.None? && m.position == node.position.Plus(oldGroup.position)
  {
  }

  /** The dragged node as stored after it was moved into `group`. */
  function InGroup(node: Node, group: Node): (n: Node)
    ensures n.id == node.id && n.parentId == Some(group.id) && n.position == node.position.Minus(group.position)
    ensures n.position.Plus(group.position) == node.position
  {
    PlusUndoesMinus(node.position, group.position);
    node.(parentId := Some(group.id), position := node.position.Minus(group.position))
  }

  /** The event's node, where it stands in the list, is stored as `InGroup` after the move. */
  lemma MoveIntoIsInGroup(nodes: seq<Node>, node: Node, group: Node)
    ensures forall i :: 0 <= i < |nodes| && nodes[i] == node ==> MoveInto(nodes, node, group)[i] == InGroup(node, group)
  {
  }

  /** Dragging a node into a group and then back out onto the canvas restores its absolute
      position and leaves it without a parent. */
  lemma DragIntoGroupAndOutRestoresPosition(nodes: seq<Node>, node: Node, group: Node, into: seq<Node>, out: seq<Node>)
    returns (mid: seq<Node>)
    requires Find(into, IsGroup) == Some(group) && node.parentId != Some(group.id)
    requires group.id != "" && group.id != node.id
    requires group in nodes && forall m :: m in nodes && m.id == group.id ==> m.position == group.position
    requires Find(out, IsGroup).None?
    requires exists m :: m in nodes && m.id == node.id
    ensures OnNodeDragStop(nodes, node, into) == Success(mid)
    ensures OnNodeDragStop(mid, InGroup(node, group), out).Success?
    ensures exists m :: m in OnNodeDragStop(mid, InGroup(node, group), out).value && m.id == node.id
    ensures forall m :: m in OnNodeDragStop(mid, InGroup(node, group), out).value && m.id == node.id ==>
      m.parentId.None? && m.position == node.position
  {
    ReparentOnDragInto(nodes, node, into, group);
    mid := Reparent(nodes, node, group);
    var found := GroupSurvivesReparent(nodes, node, group);
    var kept := ReparentKeepsDragged(nodes, node, group);
    var dragged := InGroup(node, group);
    var res := DragOutOfGroup(mid, dragged, out, group.position);
    PlusUndoesMinus(node.position, group.position);
  }

  /** Reparenting keeps the dragged node in the list. */
  lemma ReparentKeepsDragged(nodes: seq<Node>, node: Node, group: Node) returns (m: Node)
    requires exists n :: n in nodes && n.id == node.id
    ensures m in Reparent(nodes, node, group) && m.id == node.id
  {
    var n :| n in nodes && n.id == node.id;
    var i :| 0 <= i < |nodes| && nodes[i] == n;
    var moved := MoveInto(nodes, node, group);
    m := moved[i];
    assert m in multiset(moved);
    assert m in multiset(Reparent(nodes, node, group));
  }

  /** Dragging a parented node onto the bare canvas, when its group is found at `groupPos`,
      succeeds and leaves it parentless at its relative position plus `groupPos`. */
  lemma DragOutOfGroup(nodes: seq<Node>, dragged: Node, out: seq<Node>, groupPos: Pos) returns (res: seq<Node>)
    requires Find(out, IsGroup).None? && HasParent(dragged)
    requires FindNode(nodes, dragged.parentId.value).Some?
    requires FindNode(nodes, dragged.parentId.value).value.position == groupPos
    ensures OnNodeDragStop(nodes, dragged, out) == Success(res)
    ensures forall m :: m in res && m.id == dragged.id ==> m.parentId.None? && m.position == dragged.position.Plus(groupPos)
    ensures (exists m :: m in nodes && m.id == dragged.id) ==> exists m :: m in res && m.id == dragged.id
  {
    var oldGroup := FindNode(nodes, dragged.parentId.value).value;
    UnparentOnDragOut(nodes, dragged, out, oldGroup);
    res := Unparent(nodes, dragged, oldGroup);
    if m :| m in nodes && m.id == dragged.id {
      var i :| 0 <= i < |nodes| && nodes[i] == m;
      assert res[i] in res;
    }
  }

  /** Dropping a node on a group other than its parent reparents it. */
  lemma ReparentOnDragInto(nodes: seq<Node>, node: Node, into: seq<Node>, group: Node)
    requires Find(into, IsGroup) == Some(group) && node.parentId != Some(group.id)
    ensures OnNodeDragStop(nodes, node, into) == Success(Reparent(nodes, node, group))
  {
  }

  /** The group a node was dragged into is still found, at the same position, after reparenting. */
  lemma GroupSurvivesReparent(nodes: seq<Node>, node: Node, group: Node) returns (found: Node)
    requires group.id != node.id
    requires group in nodes && forall m :: m in nodes && m.id == group.id ==> m.position == group.position
    ensures FindNode(Reparent(nodes, node, group), group.id) == Some(found)
    ensures found.position == group.position
  {
    ReparentNodes(nodes, node, group);
    assert group in Reparent(nodes, node, group);
    found := FindNode(Reparent(nodes, node, group), group.id).value;
    assert found in nodes;
  }

  // ---------------------------------------------------------------------------------------------
  // New nodes: onConnectEnd and handleFunctionDrag

  /** Where a connection drag ended, as the DOM reports it: whether on the pane, the `data-id` of
      the enclosing group element and of the enclosing editor element (if any), and the drop point
      already converted by `screenToFlowPosition`. */
  datatype DropEvent = DropEvent(
    targetIsPane: bool,
    groupElementId: Option<string>,
    editorElementId: Option<string>,
    position: Pos)

  /** `(nodes.length + 1).toString()`. */
  function NextId(nodes: seq<Node>): string
  {
    NatToString(|nodes| + 1)
  }

  /** The id for a new node is unused as long as ids so far were counters up to the node count. */
  lemma NextIdFresh(nodes: seq<Node>)
    requires forall i :: 0 <= i < |nodes| ==> exists k :: 1 <= k <= |nodes| && nodes[i].id == NatToString(k)
    ensures forall m :: m in nodes ==> m.id != NextId(nodes)
  {
    forall m | m in nodes ensures m.id != NextId(nodes) {
      var i :| 0 <= i < |nodes| && nodes[i] == m;
      var k :| 1 <= k <= |nodes| && nodes[i].id == NatToString(k);
      NatToStringInjective(k, |nodes| + 1);
    }
  }

  /** The import statement a connection drop writes into its new node. */
  function ImportStatement(name: string, fileName: string): string
  {
    "import { " + name + " } from '" + fileName + "';"
  }

  /** The node created when a non-function connection is dropped on the pane or a group. */
  function ConnectionDropNode(nodes: seq<Node>, fromNode: Node, fromHandle: Handle, ev: DropEvent): (n: Node)
    ensures n.id == NextId(nodes) && n.kind == Editor && n.position == ev.position
    ensures (forall i :: 0 <= i < |n.id| ==> IsDigit(n.id[i])) && ParseNat(n.id) == |nodes| + 1
    ensures n.data == NodeData("newFile-" + n.id + ".js", ImportStatement(fromHandle.name, fromNode.data.fileName), [])
    ensures n.parentId == if ev.groupElementId.Some? && ev.groupElementId.value != "" then ev.groupElementId else fromNode.parentId
  {
    var id := NextId(nodes);
    ParseNatToString(|nodes| + 1);
    var parentId := if ev.groupElementId.Some? && ev.groupElementId.value != "" then ev.groupElementId else fromNode.parentId;
    Node(id, Editor, ev.position, parentId, NodeData("newFile-" + id + ".js", ImportStatement(fromHandle.name, fromNode.data.fileName), []))
  }

  /** The node created when a function handle is dropped on the pane: the extracted chunk, now
      exported, in a file named after the function. */
  function FunctionDragNode(nodes: seq<Node>, fromHandle: Handle, chunk: string, position: Pos): (n: Node)
    ensures n.id == NextId(nodes) && n.kind == Editor && n.position == position && n.parentId.None?
    ensures (forall i :: 0 <= i < |n.id| ==> IsDigit(n.id[i])) && ParseNat(n.id) == |nodes| + 1
    ensures n.data == NodeData("./" + fromHandle.name + ".js", "export " + chunk, [])
  {
    ParseNatToString(|nodes| + 1);
    Node(NextId(nodes), Editor, position, None, NodeData("./" + fromHandle.name + ".js", "export " + chunk, []))
  }

  /** The line of the target editor the drop point falls on: `Math.floor(dy / 16)` for editor
      lines 16 units high. */
  function DropLine(y: int, targetY: int): (line: int)
    ensures 16 * line <= y - targetY < 16 * line + 16
  {
    (y - targetY) / 16
  }

  /** `handleFunctionDrag(fromNode, fromHandle, event)`: the handle's lines are cut from the source
      node; on the pane they become a new node, on an editor node they are inserted at the drop
      line, and on a group they are dropped. */
  function HandleFunctionDrag(st: FlowState, fromNode: Node, fromHandle: Handle, ev: DropEvent, co: Collaborators): (r: Result<FlowState, Error>)
    ensures r == Failure(MissingEditorElement) <==> !ev.targetIsPane && ev.groupElementId.None? && ev.editorElementId.None?
    ensures r.Failure? <==>
      || FindNode(st.nodes, fromNode.id).None?
      || (!ev.targetIsPane && ev.groupElementId.None? &&
          (ev.editorElementId.None? || FindNode(st.nodes, ev.editorElementId.value).None?))
    ensures r.Success? ==> |r.value.nodes| == |st.nodes| + (if ev.targetIsPane then 1 else 0)
  {
    var (updatedText, chunk) := co.removeTextChunk(fromNode.data.value, fromHandle.startLine, fromHandle.endLine);
    if ev.targetIsPane then
      // `onTextChange` looks the source up in the nodes it read, which do not yet hold the new
      // node; its update then maps over the list that does.
      if FindNode(st.nodes, fromNode.id).None? then Failure(NodeNotFound)
      else
        var withNew := st.nodes + [FunctionDragNode(st.nodes, fromHandle, chunk, ev.position)];
        assert FindNode(st.nodes, fromNode.id).value in withNew;
        OnTextChange(st.(nodes := withNew), fromNode.id, updatedText, co)
    else if ev.groupElementId.None? then
      if ev.editorElementId.None? then Failure(MissingEditorElement)
      else
        match FindNode(st.nodes, ev.editorElementId.value)
        case None => Failure(NodeNotFound)
        case Some(target) =>
          var line := DropLine(ev.position.y, target.position.y);
          InsertThenCutSucceeds(st, target, fromNode.id, updatedText, chunk, line, co);
          InsertThenCut(st, target, fromNode.id, updatedText, chunk, line, co)
    else
      OnTextChange(st, fromNode.id, updatedText, co)
  }

  /** The drop on an editor node: the chunk is inserted into the target at `line`, then the
      source node receives its remaining text; either step fails if its node is missing. */
  function InsertThenCut(st: FlowState, target: Node, fromId: string, updatedText: string, chunk: string, line: int, co: Collaborators): Result<FlowState, Error>
  {
    match OnTextChange(st, target.id, co.insertTextChunk(target.data.value, chunk, line), co)
    case Failure(e) => Failure(e)
    case Success(st1) => OnTextChange(st1, fromId, updatedText, co)
  }

  /** The drop on an editor node fails exactly when one of its two nodes is missing: the target,
      or the source once the target's text is set (which keeps every id). */
  lemma InsertThenCutSucceeds(st: FlowState, target: Node, fromId: string, updatedText: string, chunk: string, line: int, co: Collaborators)
    requires FindNode(st.nodes, target.id).Some?
    ensures var r := InsertThenCut(st, target, fromId, updatedText, chunk, line, co);
      && (r.Success? <==> FindNode(st.nodes, fromId).Some?)
      && (r.Success? ==> |r.value.nodes| == |st.nodes|)
      && (r.Failure? ==> r.error == NodeNotFound)
  {
    var st1 := TextChangeSetsText(st, target.id, co.insertTextChunk(target.data.value, chunk, line), co);
    SameIdsSameFind(st.nodes, st1.nodes, fromId);
  }

  /** Cutting a function onto the pane appends one node after the existing ones and leaves the
      source node holding the remaining text. The appended node is the exported chunk when its id
      is new. When `nodes.length + 1` is already the source's id (possible once a node has been
      deleted), the text update matches the appended node too and overwrites the chunk with the
      source's remaining text: the chunk is lost. */
  lemma FunctionDragToPane(st: FlowState, fromNode: Node, fromHandle: Handle, ev: DropEvent, co: Collaborators)
    returns (r: FlowState)
    requires ev.targetIsPane
    requires FindNode(st.nodes, fromNode.id).Some?
    ensures HandleFunctionDrag(st, fromNode, fromHandle, ev, co) == Success(r)
    ensures var cut := co.removeTextChunk(fromNode.data.value, fromHandle.startLine, fromHandle.endLine);
      && |r.nodes| == |st.nodes| + 1
      && (NextId(st.nodes) != fromNode.id ==>
            r.nodes[|st.nodes|] == FunctionDragNode(st.nodes, fromHandle, cut.1, ev.position))
      && (NextId(st.nodes) == fromNode.id ==>
            r.nodes[|st.nodes|].id == fromNode.id && r.nodes[|st.nodes|].data.value == cut.0)
      && forall i :: 0 <= i < |st.nodes| && st.nodes[i].id == fromNode.id ==> r.nodes[i].data.value == cut.0
  {
    var cut := co.removeTextChunk(fromNode.data.value, fromHandle.startLine, fromHandle.endLine);
    var added := FunctionDragNode(st.nodes, fromHandle, cut.1, ev.position);
    PaneDropIsTextChange(st, fromNode, fromHandle, ev, co);
    if added.id != fromNode.id {
      r := AppendThenTextChange(st, added, fromNode.id, cut.0, co);
    } else {
      r := AppendCollidingTextChange(st, added, fromNode.id, cut.0, co);
    }
  }

  /** A text change after appending a node with the same id edits the appended node as well. */
  lemma AppendCollidingTextChange(st: FlowState, added: Node, nodeId: string, value: string, co: Collaborators) returns (r: FlowState)
    requires FindNode(st.nodes, nodeId).Some? && added.id == nodeId
    ensures OnTextChange(st.(nodes := st.nodes + [added]), nodeId, value, co) == Success(r)
    ensures |r.nodes| == |st.nodes| + 1
    ensures r.nodes[|st.nodes|].id == nodeId && r.nodes[|st.nodes|].data.value == value
    ensures forall i :: 0 <= i < |st.nodes| && st.nodes[i].id == nodeId ==> r.nodes[i].data.value == value
  {
    var st1 := st.(nodes := st.nodes + [added]);
    var k := FoundAt(st.nodes, nodeId);
    assert st1.nodes[k] in st1.nodes;
    r := TextChangeSetsText(st1, nodeId, value, co);
    AppendedCollision(st.nodes, added, nodeId, value, r.nodes);
  }

  /** Index bookkeeping for an edit after appending a node with the edited id. */
  lemma AppendedCollision(nodes: seq<Node>, added: Node, nodeId: string, value: string, edited: seq<Node>)
    requires added.id == nodeId && |edited| == |nodes| + 1
    requires forall i :: 0 <= i < |nodes + [added]| ==> edited[i].id == (nodes + [added])[i].id
    requires forall i :: 0 <= i < |nodes + [added]| && (nodes + [added])[i].id == nodeId ==> edited[i].data.value == value
    ensures edited[|nodes|].id == nodeId && edited[|nodes|].data.value == value
    ensures forall i :: 0 <= i < |nodes| && nodes[i].id == nodeId ==> edited[i].data.value == value
  {
    assert (nodes + [added])[|nodes|] == added;
    forall i | 0 <= i < |nodes| && nodes[i].id == nodeId ensures edited[i].data.value == value {
      assert (nodes + [added])[i] == nodes[i];
    }
  }

  /** A text change after appending a node with another id edits the old nodes and keeps the
      appended one last. */
  lemma AppendThenTextChange(st: FlowState, added: Node, nodeId: string, value: string, co: Collaborators) returns (r: FlowState)
    requires FindNode(st.nodes, nodeId).Some? && added.id != nodeId
    ensures OnTextChange(st.(nodes := st.nodes + [added]), nodeId, value, co) == Success(r)
    ensures |r.nodes| == |st.nodes| + 1 && r.nodes[|st.nodes|] == added
    ensures forall i :: 0 <= i < |st.nodes| && st.nodes[i].id == nodeId ==> r.nodes[i].data.value == value
  {
    var st1 := st.(nodes := st.nodes + [added]);
    var k := FoundAt(st.nodes, nodeId);
    assert st1.nodes[k] in st1.nodes;
    r := TextChangeSetsText(st1, nodeId, value, co);
    AppendedEdit(st.nodes, added, nodeId, value, r.nodes);
  }

  /** Index bookkeeping for an edit after an append: the appended node keeps the last place. */
  lemma AppendedEdit(nodes: seq<Node>, added: Node, nodeId: string, value: string, edited: seq<Node>)
    requires added.id != nodeId && |edited| == |nodes| + 1
    requires forall i :: 0 <= i < |nodes + [added]| && (nodes + [added])[i].id != nodeId ==> edited[i] == (nodes + [added])[i]
    requires forall i :: 0 <= i < |nodes + [added]| && (nodes + [added])[i].id == nodeId ==> edited[i].data.value == value
    ensures edited[|nodes|] == added
    ensures forall i :: 0 <= i < |nodes| && nodes[i].id == nodeId ==> edited[i].data.value == value
  {
    assert (nodes + [added])[|nodes|] == added;
    forall i | 0 <= i < |nodes| && nodes[i].id == nodeId ensures edited[i].data.value == value {
      assert (nodes + [added])[i] == nodes[i];
    }
  }

  /** On the pane, the drop appends the new node and then applies the source node's text change. */
  lemma PaneDropIsTextChange(st: FlowState, fromNode: Node, fromHandle: Handle, ev: DropEvent, co: Collaborators)
    requires ev.targetIsPane
    ensures var cut := co.removeTextChunk(fromNode.data.value, fromHandle.startLine, fromHandle.endLine);
      HandleFunctionDrag(st, fromNode, fromHandle, ev, co)
        == if FindNode(st.nodes, fromNode.id).None? then Failure(NodeNotFound)
           else OnTextChange(st.(nodes := st.nodes + [FunctionDragNode(st.nodes, fromHandle, cut.1, ev.position)]), fromNode.id, cut.0, co)
  {
  }

  /** Cutting a function onto another editor node inserts the chunk into that node at the drop line
      and leaves the source node holding the remaining text. */
  lemma FunctionDragOntoNode(st: FlowState, fromNode: Node, fromHandle: Handle, ev: DropEvent, co: Collaborators, target: Node)
    requires !ev.targetIsPane && ev.groupElementId.None? && ev.editorElementId == Some(target.id)
    requires FindNode(st.nodes, target.id) == Some(target)
    requires FindNode(st.nodes, fromNode.id).Some? && target.id != fromNode.id
    ensures var r := HandleFunctionDrag(st, fromNode, fromHandle, ev, co);
      var cut := co.removeTextChunk(fromNode.data.value, fromHandle.startLine, fromHandle.endLine);
      && r.Success?
      && |r.value.nodes| == |st.nodes|
      && (forall i :: 0 <= i < |st.nodes| && st.nodes[i].id == target.id ==>
            r.value.nodes[i].data.value == co.insertTextChunk(target.data.value, cut.1, DropLine(ev.position.y, target.position.y)))
      && (forall i :: 0 <= i < |st.nodes| && st.nodes[i].id == fromNode.id ==> r.value.nodes[i].data.value == cut.0)
  {
    var cut := co.removeTextChunk(fromNode.data.value, fromHandle.startLine, fromHandle.endLine);
    var line := DropLine(ev.position.y, target.position.y);
    assert HandleFunctionDrag(st, fromNode, fromHandle, ev, co) == InsertThenCut(st, target, fromNode.id, cut.0, cut.1, line, co);
    var r := InsertThenCutTexts(st, target, fromNode.id, cut.0, cut.1, line, co);
  }

  /** Both texts of a drop on an editor node land where they belong. */
  lemma InsertThenCutTexts(st: FlowState, target: Node, fromId: string, updatedText: string, chunk: string, line: int, co: Collaborators)
    returns (r: FlowState)
    requires FindNode(st.nodes, target.id).Some? && FindNode(st.nodes, fromId).Some? && target.id != fromId
    ensures InsertThenCut(st, target, fromId, updatedText, chunk, line, co) == Success(r)
    ensures |r.nodes| == |st.nodes|
    ensures forall i :: 0 <= i < |st.nodes| && st.nodes[i].id == target.id ==>
      r.nodes[i].data.value == co.insertTextChunk(target.data.value, chunk, line)
    ensures forall i :: 0 <= i < |st.nodes| && st.nodes[i].id == fromId ==> r.nodes[i].data.value == updatedText
  {
    var inserted := co.insertTextChunk(target.data.value, chunk, line);
    var st1 := TextChangeSetsText(st, target.id, inserted, co);
    assert FindNode(st1.nodes, fromId).Some? by {
      var k := FoundAt(st.nodes, fromId);
      assert st1.nodes[k] in st1.nodes;
    }
    r := TextChangeSetsText(st1, fromId, updatedText, co);
    assert InsertThenCut(st, target, fromId, updatedText, chunk, line, co) == Success(r);
    forall i | 0 <= i < |st.nodes| && st.nodes[i].id == target.id ensures r.nodes[i].data.value == inserted {
      assert st1.nodes[i].id == target.id && st1.nodes[i].data.value == inserted;
      assert r.nodes[i].data.value == st1.nodes[i].data.value;
    }
    forall i | 0 <= i < |st.nodes| && st.nodes[i].id == fromId ensures r.nodes[i].data.value == updatedText {
      assert st1.nodes[i].id == fromId;
    }
  }

  /** The text part of `onTextChange`: ids and order are kept and only the edited nodes' text
      changes. */
  lemma TextChangeSetsText(st: FlowState, nodeId: string, value: string, co: Collaborators) returns (r: FlowState)
    requires FindNode(st.nodes, nodeId).Some?
    ensures OnTextChange(st, nodeId, value, co) == Success(r)
    ensures |r.nodes| == |st.nodes|
    ensures forall i :: 0 <= i < |st.nodes| ==> r.nodes[i].id == st.nodes[i].id
    ensures forall i :: 0 <= i < |st.nodes| ==>
      r.nodes[i].data.value == (if st.nodes[i].id == nodeId then value else st.nodes[i].data.value)
    ensures forall i :: 0 <= i < |st.nodes| && st.nodes[i].id != nodeId ==> r.nodes[i] == st.nodes[i]
  {
    r := OnTextChange(st, nodeId, value, co).value;
  }

  /** Cutting a function onto a group removes the lines from the source node and places them
      nowhere: no node is added and only the source node's text changes. */
  lemma FunctionDragOntoGroupDropsChunk(st: FlowState, fromNode: Node, fromHandle: Handle, ev: DropEvent, co: Collaborators)
    requires !ev.targetIsPane && ev.groupElementId.Some?
    requires FindNode(st.nodes, fromNode.id).Some?
    ensures var r := HandleFunctionDrag(st, fromNode, fromHandle, ev, co);
      && r.Success?
      && |r.value.nodes| == |st.nodes|
      && forall i :: 0 <= i < |st.nodes| ==>
           r.value.nodes[i].data.value ==
             (if st.nodes[i].id == fromNode.id
              then co.removeTextChunk(fromNode.data.value, fromHandle.startLine, fromHandle.endLine).0
              else st.nodes[i].data.value)
  {
  }

  /** The node `onConnectEnd` starts from: the one whose id the connection started on. */
  function ConnectingNode(st: FlowState, connectingNodeId: Option<string>): Option<Node>
  {
    if connectingNodeId.Some? then FindNode(st.nodes, connectingNodeId.value) else None
  }

  /** The handle `onConnectEnd` starts from: `fromNode?.data?.handles.find(...)`. */
  function ConnectingHandle(fromNode: Option<Node>, connectingHandleId: Option<string>): Option<Handle>
  {
    if fromNode.Some? && connectingHandleId.Some? then Find(fromNode.value.data.handles, HandleIdIs(connectingHandleId.value))
    else None
  }

  /** `onConnectEnd(event)`. `connectingNodeId` and `connectingHandleId` are the refs set by
      `onConnectStart` (`None` for `null`). Function handles are handed to `HandleFunctionDrag`;
      selection handles and drops on anything but the pane or a group do nothing; dereferencing a
      missing source node or handle is a TypeError. */
  function OnConnectEnd(st: FlowState, connectingNodeId: Option<string>, connectingHandleId: Option<string>, ev: DropEvent, co: Collaborators): (r: Result<FlowState, Error>)
    ensures var h := ConnectingHandle(ConnectingNode(st, connectingNodeId), connectingHandleId);
      h.Some? && h.value.handleType == FunctionType ==>
        r == HandleFunctionDrag(st, ConnectingNode(st, connectingNodeId).value, h.value, ev, co)
    ensures var h := ConnectingHandle(ConnectingNode(st, connectingNodeId), connectingHandleId);
      r.Failure? <==>
        || (h.Some? && h.value.handleType == FunctionType && !ev.targetIsPane && ev.groupElementId.None? &&
            (ev.editorElementId.None? || FindNode(st.nodes, ev.editorElementId.value).None?))
        || (h.None? && (ev.targetIsPane || ev.groupElementId.Some?))
    ensures var h := ConnectingHandle(ConnectingNode(st, connectingNodeId), connectingHandleId);
      r.Success? && !(h.Some? && h.value.handleType == FunctionType) ==>
        && r.value.edges == st.edges && r.value.handles == st.handles
        && |st.nodes| <= |r.value.nodes| <= |st.nodes| + 1 && r.value.nodes[..|st.nodes|] == st.nodes
  {
    var fromNode := ConnectingNode(st, connectingNodeId);
    var fromHandle := ConnectingHandle(fromNode, connectingHandleId);
    if fromHandle.Some? && fromHandle.value.handleType == FunctionType then
      assert fromNode.value in st.nodes;
      HandleFunctionDrag(st, fromNode.value, fromHandle.value, ev, co)
    else if fromHandle.Some? && fromHandle.value.handleType == SelectionType then
      Success(st)
    else if !ev.targetIsPane && ev.groupElementId.None? then
      Success(st)
    else if fromNode.None? then
      Failure(NodeNotFound)
    else if fromHandle.None? then
      Failure(MissingHandle)
    else
      var nodes := st.nodes + [ConnectionDropNode(st.nodes, fromNode.value, fromHandle.value, ev)];
      assert nodes[..|st.nodes|] == st.nodes;
      Success(st.(nodes := nodes))
  }

  /** A non-function, non-selection connection dropped on the pane or a group adds one editor node
      importing the handle's symbol from the source file; edges and handles are untouched. */
  lemma ConnectionDropAddsImportNode(st: FlowState, connectingNodeId: Option<string>, connectingHandleId: Option<string>, ev: DropEvent, co: Collaborators)
    requires ConnectingHandle(ConnectingNode(st, connectingNodeId), connectingHandleId).Some?
    requires ConnectingHandle(ConnectingNode(st, connectingNodeId), connectingHandleId).value.handleType !in {FunctionType, SelectionType}
    requires ev.targetIsPane || ev.groupElementId.Some?
    ensures var r := OnConnectEnd(st, connectingNodeId, connectingHandleId, ev, co);
      var from := ConnectingNode(st, connectingNodeId).value;
      var h := ConnectingHandle(ConnectingNode(st, connectingNodeId), connectingHandleId).value;
      && r.Success?
      && r.value.edges == st.edges && r.value.handles == st.handles
      && |r.value.nodes| == |st.nodes| + 1 && r.value.nodes[..|st.nodes|] == st.nodes
      && r.value.nodes[|st.nodes|].id == NextId(st.nodes)
      && r.value.nodes[|st.nodes|].data.value == ImportStatement(h.name, from.data.fileName)
      && r.value.nodes[|st.nodes|].parentId ==
           (if ev.groupElementId.Some? && ev.groupElementId.value != "" then ev.groupElementId else from.parentId)
  {
    var r := OnConnectEnd(st, connectingNodeId, connectingHandleId, ev, co);
    assert r.value.nodes[..|st.nodes|] == st.nodes;
  }

  /** Dropping a selection handle, or a connection that lands on neither the pane nor a group,
      changes nothing. */
  lemma ConnectionDropIgnored(st: FlowState, connectingNodeId: Option<string>, connectingHandleId: Option<string>, ev: DropEvent, co: Collaborators)
    requires var h := ConnectingHandle(ConnectingNode(st, connectingNodeId), connectingHandleId);
      || (h.Some? && h.value.handleType == SelectionType)
      || (!(h.Some? && h.value.handleType == FunctionType) && !ev.targetIsPane && ev.groupElementId.None?)
    ensures OnConnectEnd(st, connectingNodeId, connectingHandleId, ev, co) == Success(st)
  {
  }

  /** A connection that starts from an unknown node or handle and lands on the pane or a group is
      the TypeError of reading `fromNode.data` or `fromHandle.name`. */
  lemma ConnectionDropMissingSource(st: FlowState, connectingNodeId: Option<string>, connectingHandleId: Option<string>, ev: DropEvent, co: Collaborators)
    requires ConnectingHandle(ConnectingNode(st, connectingNodeId), connectingHandleId).None?
    requires ev.targetIsPane || ev.groupElementId.Some?
    ensures OnConnectEnd(st, connectingNodeId, connectingHandleId, ev, co).Failure?
  {
  }
}

=== FILE: folder_tree.dfy ===
/** The folder browser's flattening of a nested directory listing into the id-keyed item map that
    `react-complex-tree` renders (src/components/FolderTree.jsx). */
module FolderTree {
  import opened Seqs

  /** An entry of the listing the folder picker returns; `contents` is read only for directories. */
  datatype Item = Item(path: string, name: string, isDirectory: bool, contents: seq<Item>)

  /** A tree item of the flat map: `index`, the keys of its `children`, its title `data`, and
      whether it renders as a folder. */
  datatype TreeItem = TreeItem(index: string, children: seq<string>, data: string, isFolder: bool)

  /** The key of the tree's root item. */
  const RootKey: string := "root"

  /** The root item `BasicTree` starts from. */
  const RootItem: TreeItem := TreeItem(RootKey, [], "Root item", true)

  /** The paths of the items of one level, in order. */
  function Paths(items: seq<Item>): (r: seq<string>)
    ensures |r| == |items|
    ensures forall i :: 0 <= i < |items| ==> r[i] == items[i].path
  {
    if items == [] then [] else [items[0].path] + Paths(items[1..])
  }

  /** The paths of all items at every depth, in the order `flattenStructure` visits them (an item,
      then the contents of a directory, then the item's later siblings). */
  function AllPaths(items: seq<Item>): seq<string>
    decreases items
  {
    if items == [] then []
    else [items[0].path] + SubPaths(items[0]) + AllPaths(items[1..])
  }

  /** The paths below one item: none for a file. */
  function SubPaths(item: Item): seq<string>
    decreases item, 0
  {
    if item.isDirectory then AllPaths(item.contents) else []
  }

  function PathSet(items: seq<Item>): set<string>
  {
    set p | p in AllPaths(items)
  }

  /** `flattenStructure(flat, nestedStructure, parentKey)`: the `forEach` over the items, each
      handled by `FlattenItem`. */
  function Flatten(flat: map<string, TreeItem>, items: seq<Item>, parentKey: string): (r: map<string, TreeItem>)
    requires parentKey in flat || items == []
    ensures r.Keys == flat.Keys + PathSet(items)
    ensures forall k :: k in flat && k != parentKey && k !in PathSet(items) ==> r[k] == flat[k]
    decreases items
  {
    if items == [] then flat
    else
      PathSetSplit(items);
      Flatten(FlattenItem(flat, items[0], parentKey), items[1..], parentKey)
  }

  /** The body of the `forEach`: the item's path is appended to the parent's children (reading
      `flat[parentKey]` needs the parent entry), the item gets a fresh entry with no children, and
      a directory is flattened under its own path. */
  function FlattenItem(flat: map<string, TreeItem>, child: Item, parentKey: string): (r: map<string, TreeItem>)
    requires parentKey in flat
    ensures r.Keys == flat.Keys + {child.path} + (set p | p in SubPaths(child))
    decreases child
  {
    var withChild := AddChild(flat, child, parentKey);
    if child.isDirectory then Flatten(withChild, child.contents, child.path) else withChild
  }

  /** Appends the item's path to the parent's children and gives the item a fresh, childless entry. */
  function AddChild(flat: map<string, TreeItem>, child: Item, parentKey: string): map<string, TreeItem>
    requires parentKey in flat
  {
    var parent := flat[parentKey];
    flat[parentKey := parent.(children := parent.children + [child.path])]
        [child.path := TreeItem(child.path, [], child.name, child.isDirectory)]
  }

  /** The entry an item ends up with: its direct children's paths if it is a directory. */
  function Entry(item: Item): TreeItem
  {
    TreeItem(item.path, if item.isDirectory then Paths(item.contents) else [], item.name, item.isDirectory)
  }

  /** An independent description of the entries of a listing: every item at every depth keyed by
      its path. */
  function Entries(items: seq<Item>): map<string, TreeItem>
    decreases items
  {
    if items == [] then map[]
    else map[items[0].path := Entry(items[0])] + SubEntries(items[0]) + Entries(items[1..])
  }

  function SubEntries(item: Item): map<string, TreeItem>
    decreases item, 0
  {
    if item.isDirectory then Entries(item.contents) else map[]
  }

  /** Splits the path set of a non-empty listing into its first item, that item's descendants
      and the later siblings. */
  lemma PathSetSplit(items: seq<Item>)
    requires items != []
    ensures PathSet(items) == {items[0].path} + (set p | p in SubPaths(items[0])) + PathSet(items[1..])
  {
    assert AllPaths(items) == [items[0].path] + SubPaths(items[0]) + AllPaths(items[1..]);
  }

  lemma {:induction false} EntriesKeys(items: seq<Item>)
    ensures Entries(items).Keys == PathSet(items)
    decreases items
  {
    if items != [] {
      PathSetSplit(items);
      if items[0].isDirectory {
        EntriesKeys(items[0].contents);
      }
      EntriesKeys(items[1..]);
    }
  }

  /** The facts about a listing without repeated paths that the proofs split it into. */
  lemma DistinctPathsParts(items: seq<Item>)
    requires items != [] && Distinct(AllPaths(items))
    ensures Distinct(SubPaths(items[0])) && Distinct(AllPaths(items[1..]))
    ensures items[0].path !in SubPaths(items[0]) && items[0].path !in AllPaths(items[1..])
    ensures forall p :: p in SubPaths(items[0]) ==> p !in AllPaths(items[1..])
  {
    var head, sub, rest := [items[0].path], SubPaths(items[0]), AllPaths(items[1..]);
    assert AllPaths(items) == head + sub + rest;
    DistinctConcat3(head, sub, rest);
    assert items[0].path in head;
  }

  /** Rearranging the updates of one flattening step: the parent's entry is overwritten last, and
      the parent key is none of the added ones. */
  lemma MapShuffle(flat: map<string, TreeItem>, pk: string, e1: TreeItem, e2: TreeItem, c: string, ec: TreeItem,
                   sub: map<string, TreeItem>, rest: map<string, TreeItem>)
    requires pk != c && pk !in sub && pk !in rest
    ensures (flat[pk := e1][c := ec] + sub)[pk := e2] + rest == flat[pk := e2] + (map[c := ec] + sub + rest)
  {
  }

  /** The map after one item's step, stated without the recursion: parent extended by the item's
      path, the item's complete entry, its descendants' entries. */
  function Placed(flat: map<string, TreeItem>, child: Item, parentKey: string): map<string, TreeItem>
    requires parentKey in flat
  {
    PlacedTop(flat, child, parentKey) + SubEntries(child)
  }

  /** The parent extended by the item's path, and the item's complete entry. */
  function PlacedTop(flat: map<string, TreeItem>, child: Item, parentKey: string): map<string, TreeItem>
    requires parentKey in flat
  {
    var parent := flat[parentKey];
    flat[parentKey := parent.(children := parent.children + [child.path])][child.path := Entry(child)]
  }

  /** Flattening one item of a listing into a map where its paths are new: its own entry is
      complete, its descendants' entries are added, and the parent has gained its path. */
  lemma FlattenItemIsEntry(flat: map<string, TreeItem>, child: Item, parentKey: string)
    requires parentKey in flat
    requires child.path !in flat && child.path !in SubPaths(child) && Distinct(SubPaths(child))
    requires forall p :: p in SubPaths(child) ==> p !in flat
    ensures FlattenItem(flat, child, parentKey) == Placed(flat, child, parentKey)
    decreases child, 1
  {
    if child.isDirectory {
      FlattenDirIsEntry(flat, child, parentKey);
    } else {
      FlattenFileIsEntry(flat, child, parentKey);
    }
  }

  lemma FlattenFileIsEntry(flat: map<string, TreeItem>, child: Item, parentKey: string)
    requires parentKey in flat && !child.isDirectory
    ensures FlattenItem(flat, child, parentKey) == Placed(flat, child, parentKey)
  {
    var placed := PlacedTop(flat, child, parentKey);
    assert AddChild(flat, child, parentKey) == placed;
    assert placed + map[] == placed;
  }

  /** A directory's step: its contents are flattened under its path into the map that already
      holds its childless entry. */
  lemma {:induction false} FlattenDirIsEntry(flat: map<string, TreeItem>, child: Item, parentKey: string)
    requires parentKey in flat && child.isDirectory
    requires child.path !in flat && child.path !in SubPaths(child) && Distinct(SubPaths(child))
    requires forall p :: p in SubPaths(child) ==> p !in flat
    ensures FlattenItem(flat, child, parentKey) == Placed(flat, child, parentKey)
    decreases child, 0
  {
    var withChild := AddChild(flat, child, parentKey);
    FreshUnderChild(flat, child, parentKey);
    FlattenIsEntries(withChild, child.contents, child.path);
    ReplaceChildEntry(flat, child, parentKey);
  }

  /** The descendants' paths are not in the map once the item has its own entry. */
  lemma FreshUnderChild(flat: map<string, TreeItem>, child: Item, parentKey: string)
    requires parentKey in flat && child.isDirectory
    requires child.path !in SubPaths(child)
    requires forall p :: p in SubPaths(child) ==> p !in flat
    ensures forall p :: p in AllPaths(child.contents) ==> p !in AddChild(flat, child, parentKey)
  {
  }

  /** Completing the item's childless entry with its contents' paths gives `Entry`. */
  lemma ReplaceChildEntry(flat: map<string, TreeItem>, child: Item, parentKey: string)
    requires parentKey in flat && child.isDirectory
    ensures var withChild := AddChild(flat, child, parentKey);
            var entry := withChild[child.path];
            withChild[child.path := entry.(children := entry.children + Paths(child.contents))]
            == PlacedTop(flat, child, parentKey)
  {
    var withChild := AddChild(flat, child, parentKey);
    var entry := withChild[child.path];
    assert entry.(children := entry.children + Paths(child.contents)) == Entry(child);
  }

  /** The parent's entry with `paths` appended to its children. */
  function Extend(flat: map<string, TreeItem>, parentKey: string, paths: seq<string>): map<string, TreeItem>
    requires parentKey in flat
  {
    flat[parentKey := flat[parentKey].(children := flat[parentKey].children + paths)]
  }

  /** With pairwise-distinct paths not yet in the map, flattening appends the top-level paths to
      the parent's children (keeping the existing ones as a prefix) and adds exactly the entries
      of `Entries`: every item at every depth, keyed by its path, listing its own children. */
  lemma {:induction false} FlattenIsEntries(flat: map<string, TreeItem>, items: seq<Item>, parentKey: string)
    requires parentKey in flat
    requires Distinct(AllPaths(items))
    requires forall p :: p in AllPaths(items) ==> p !in flat
    ensures Flatten(flat, items, parentKey) == Extend(flat, parentKey, Paths(items)) + Entries(items)
    decreases items
  {
    if items == [] {
      assert flat[parentKey].children + [] == flat[parentKey].children;
      assert Extend(flat, parentKey, []) == flat;
      assert flat + map[] == flat;
    } else {
      var child, rest := items[0], items[1..];
      StepFacts(flat, items, parentKey);
      var below := FlattenItem(flat, child, parentKey);
      FlattenItemIsEntry(flat, child, parentKey);
      FlattenIsEntries(below, rest, parentKey);
      StepShuffle(flat, items, parentKey);
    }
  }

  /** What one step needs: the first item's paths are fresh and distinct, the later siblings'
      paths are fresh after the step, and the parent key is none of the added ones. */
  lemma StepFacts(flat: map<string, TreeItem>, items: seq<Item>, parentKey: string)
    requires parentKey in flat && items != []
    requires Distinct(AllPaths(items))
    requires forall p :: p in AllPaths(items) ==> p !in flat
    ensures items[0].path !in flat && items[0].path !in SubPaths(items[0]) && Distinct(SubPaths(items[0]))
    ensures forall p :: p in SubPaths(items[0]) ==> p !in flat
    ensures Distinct(AllPaths(items[1..]))
    ensures forall p :: p in AllPaths(items[1..]) ==> p !in FlattenItem(flat, items[0], parentKey)
    ensures parentKey != items[0].path && parentKey !in SubEntries(items[0]) && parentKey !in Entries(items[1..])
  {
    DistinctPathsParts(items);
    assert AllPaths(items) == [items[0].path] + SubPaths(items[0]) + AllPaths(items[1..]);
    if items[0].isDirectory {
      EntriesKeys(items[0].contents);
    }
    EntriesKeys(items[1..]);
  }

  /** The updates of one step and of the rest of the listing combine into the whole listing's. */
  lemma StepShuffle(flat: map<string, TreeItem>, items: seq<Item>, parentKey: string)
    requires parentKey in flat && items != []
    requires parentKey != items[0].path && parentKey !in SubEntries(items[0]) && parentKey !in Entries(items[1..])
    ensures Extend(Placed(flat, items[0], parentKey), parentKey, Paths(items[1..])) + Entries(items[1..])
         == Extend(flat, parentKey, Paths(items)) + Entries(items)
  {
    var child, rest := items[0], items[1..];
    var parent := flat[parentKey];
    var e1 := parent.(children := parent.children + [child.path]);
    var e2 := parent.(children := parent.children + Paths(items));
    var placed := Placed(flat, child, parentKey);
    assert placed[parentKey] == e1;
    ChildrenStep(parent, items);
    assert Extend(placed, parentKey, Paths(rest)) == placed[parentKey := e2];
    assert Extend(flat, parentKey, Paths(items)) == flat[parentKey := e2];
    assert Entries(items) == map[child.path := Entry(child)] + SubEntries(child) + Entries(rest);
    MapShuffle(flat, parentKey, e1, e2, child.path, Entry(child), SubEntries(child), Entries(rest));
  }

  /** Appending the first path, then the rest, appends all of them. */
  lemma ChildrenStep(parent: TreeItem, items: seq<Item>)
    requires items != []
    ensures var e1 := parent.(children := parent.children + [items[0].path]);
            e1.(children := e1.children + Paths(items[1..])) == parent.(children := parent.children + Paths(items))
  {
    assert Paths(items) == [items[0].path] + Paths(items[1..]);
    assert (parent.children + [items[0].path]) + Paths(items[1..]) == parent.children + ([items[0].path] + Paths(items[1..]));
  }

  /** `BasicTree`'s map: the root item, then the listing flattened under it. */
  function BasicTree(folderData: seq<Item>): (r: map<string, TreeItem>)
    ensures r.Keys == {RootKey} + PathSet(folderData)
  {
    Flatten(map[RootKey := RootItem], folderData, RootKey)
  }

  /** The root lists exactly the top-level paths, in order, and every item at every depth has its
      entry, when paths are distinct and none is the root key. */
  lemma BasicTreeShape(folderData: seq<Item>)
    requires Distinct(AllPaths(folderData)) && RootKey !in AllPaths(folderData)
    ensures BasicTree(folderData) == map[RootKey := RootItem.(children := Paths(folderData))] + Entries(folderData)
  {
    var start := map[RootKey := RootItem];
    FlattenIsEntries(start, folderData, RootKey);
    ExtendRoot(Paths(folderData));
  }

  lemma ExtendRoot(paths: seq<string>)
    ensures Extend(map[RootKey := RootItem], RootKey, paths) == map[RootKey := RootItem.(children := paths)]
  {
    assert RootItem.children + paths == paths;
  }

  /** As long as no path is `root`, the root's children are exactly the top-level paths, in order,
      repeated paths included: only the top-level `forEach` pushes onto the root's entry. */
  lemma BasicTreeRoot(folderData: seq<Item>)
    requires RootKey !in AllPaths(folderData)
    ensures BasicTree(folderData)[RootKey].children == Paths(folderData)
  {
    FlattenParentEntry(map[RootKey := RootItem], folderData, RootKey);
    assert RootItem.children + Paths(folderData) == Paths(folderData);
  }

  /** When the parent key is none of the listing's paths, flattening only appends the top-level
      paths to the parent's children; the rest of the parent's entry is kept. */
  lemma {:induction false} FlattenParentEntry(flat: map<string, TreeItem>, items: seq<Item>, parentKey: string)
    requires parentKey in flat && parentKey !in AllPaths(items)
    ensures Flatten(flat, items, parentKey)[parentKey] == flat[parentKey].(children := flat[parentKey].children + Paths(items))
    decreases items
  {
    var parent := flat[parentKey];
    if items == [] {
      assert parent.children + [] == parent.children;
    } else {
      assert AllPaths(items) == [items[0].path] + SubPaths(items[0]) + AllPaths(items[1..]);
      var below := FlattenItem(flat, items[0], parentKey);
      FlattenItemParent(flat, items[0], parentKey);
      FlattenParentEntry(below, items[1..], parentKey);
      ChildrenStep(parent, items);
    }
  }

  /** One step appends the item's path to the parent's entry, when the parent key is neither the
      item's path nor one below it. */
  lemma FlattenItemParent(flat: map<string, TreeItem>, child: Item, parentKey: string)
    requires parentKey in flat && parentKey != child.path && parentKey !in SubPaths(child)
    ensures FlattenItem(flat, child, parentKey)[parentKey] == flat[parentKey].(children := flat[parentKey].children + [child.path])
  {
    if child.isDirectory {
      assert parentKey !in PathSet(child.contents);
    }
  }

  /** An independent description of the tree's parent relation: every item at every depth maps
      to the key of the entry whose children list it. */
  function Parents(items: seq<Item>, parentKey: string): map<string, string>
    decreases items
  {
    if items == [] then map[]
    else map[items[0].path := parentKey] + SubParents(items[0]) + Parents(items[1..], parentKey)
  }

  function SubParents(item: Item): map<string, string>
    decreases item, 0
  {
    if item.isDirectory then Parents(item.contents, item.path) else map[]
  }

  lemma {:induction false} ParentsKeys(items: seq<Item>, parentKey: string)
    ensures Parents(items, parentKey).Keys == PathSet(items)
    decreases items
  {
    if items != [] {
      PathSetSplit(items);
      if items[0].isDirectory {
        ParentsKeys(items[0].contents, items[0].path);
      }
      ParentsKeys(items[1..], parentKey);
    }
  }

  /** A parent is the listing's own parent key or one of the listing's paths. */
  lemma {:induction false} ParentsValue(items: seq<Item>, parentKey: string, k: string)
    requires k in Parents(items, parentKey)
    ensures Parents(items, parentKey)[k] == parentKey || Parents(items, parentKey)[k] in AllPaths(items)
    decreases items
  {
    var child, rest := items[0], items[1..];
    assert AllPaths(items) == [child.path] + SubPaths(child) + AllPaths(rest);
    if k in Parents(rest, parentKey) {
      ParentsValue(rest, parentKey, k);
    } else if k in SubParents(child) {
      ParentsValue(child.contents, child.path, k);
    }
  }

  /** The top-level paths are among all paths. */
  lemma {:induction false} PathsInAll(items: seq<Item>, k: string)
    requires k in Paths(items)
    ensures k in AllPaths(items)
    decreases items
  {
    assert AllPaths(items) == [items[0].path] + SubPaths(items[0]) + AllPaths(items[1..]);
    if k != items[0].path {
      assert Paths(items) == [items[0].path] + Paths(items[1..]);
      PathsInAll(items[1..], k);
    }
  }

  /** Where a key of `Entries` is looked up, given distinct paths. */
  lemma EntriesLookup(items: seq<Item>, p: string)
    requires items != [] && Distinct(AllPaths(items)) && p in Entries(items)
    ensures p == items[0].path || p in SubEntries(items[0]) || p in Entries(items[1..])
    ensures p == items[0].path ==> Entries(items)[p] == Entry(items[0])
    ensures p in SubEntries(items[0]) ==> Entries(items)[p] == SubEntries(items[0])[p] && p in SubPaths(items[0])
    ensures p in Entries(items[1..]) ==> Entries(items)[p] == Entries(items[1..])[p] && p in AllPaths(items[1..])
  {
    DistinctPathsParts(items);
    if items[0].isDirectory {
      EntriesKeys(items[0].contents);
    }
    EntriesKeys(items[1..]);
  }

  /** Where a key of `Parents` is looked up, given distinct paths. */
  lemma ParentsLookup(items: seq<Item>, parentKey: string, k: string)
    requires items != [] && Distinct(AllPaths(items)) && k in Parents(items, parentKey)
    ensures k == items[0].path || k in SubParents(items[0]) || k in Parents(items[1..], parentKey)
    ensures k == items[0].path ==> Parents(items, parentKey)[k] == parentKey
    ensures k in SubParents(items[0]) ==> Parents(items, parentKey)[k] == SubParents(items[0])[k] && k in SubPaths(items[0])
    ensures k in Parents(items[1..], parentKey) ==> Parents(items, parentKey)[k] == Parents(items[1..], parentKey)[k] && k in AllPaths(items[1..])
  {
    DistinctPathsParts(items);
    if items[0].isDirectory {
      ParentsKeys(items[0].contents, items[0].path);
    }
    ParentsKeys(items[1..], parentKey);
  }

  /** A path is a top-level one exactly when its parent is the listing's parent key. */
  lemma {:induction false} TopIffParent(items: seq<Item>, parentKey: string, k: string)
    requires Distinct(AllPaths(items)) && parentKey !in AllPaths(items)
    ensures k in Paths(items) <==> k in Parents(items, parentKey) && Parents(items, parentKey)[k] == parentKey
    decreases items
  {
    if items == [] {
    } else {
      var child, rest := items[0], items[1..];
      DistinctPathsParts(items);
      assert AllPaths(items) == [child.path] + SubPaths(child) + AllPaths(rest);
      assert Paths(items) == [child.path] + Paths(rest);
      ParentsKeys(items, parentKey);
      if k in Paths(items) {
        PathsInAll(items, k);
      }
      if k in Parents(items, parentKey) {
        ParentsLookup(items, parentKey, k);
        if k == child.path {
        } else if k in SubParents(child) {
          ParentsValue(child.contents, child.path, k);
          if k in Paths(rest) {
            PathsInAll(rest, k);
          }
        } else {
          TopIffParent(rest, parentKey, k);
        }
      }
    }
  }

  /** A key is listed in an entry's children exactly when that entry is its parent. */
  lemma {:induction false} ChildIffParent(items: seq<Item>, parentKey: string, p: string, k: string)
    requires Distinct(AllPaths(items)) && parentKey !in AllPaths(items) && p in Entries(items)
    ensures k in Entries(items)[p].children <==> k in Parents(items, parentKey) && Parents(items, parentKey)[k] == p
    decreases items
  {
    var child, rest := items[0], items[1..];
    DistinctPathsParts(items);
    assert AllPaths(items) == [child.path] + SubPaths(child) + AllPaths(rest);
    EntriesLookup(items, p);
    ParentsKeys(items, parentKey);
    if k in Parents(items, parentKey) {
      ParentsLookup(items, parentKey, k);
      if k in Parents(rest, parentKey) {
        ParentsValue(rest, parentKey, k);
      }
      if k in SubParents(child) {
        ParentsValue(child.contents, child.path, k);
      }
    }
    if p == child.path {
      if child.isDirectory {
        TopIffParent(child.contents, child.path, k);
        if k in Paths(child.contents) {
          PathsInAll(child.contents, k);
        }
      }
    } else if p in SubEntries(child) {
      ChildIffParent(child.contents, child.path, p, k);
      if k in Parents(child.contents, child.path) {
        ParentsKeys(child.contents, child.path);
      }
    } else {
      ChildIffParent(rest, parentKey, p, k);
      if k in Parents(rest, parentKey) {
        ParentsKeys(rest, parentKey);
      }
    }
  }

  /** In `BasicTree`'s map a key is listed in an entry's children exactly when that entry is its
      parent, the root included. */
  lemma BasicTreeChildIffParent(folderData: seq<Item>, p: string, k: string)
    requires Distinct(AllPaths(folderData)) && RootKey !in AllPaths(folderData)
    requires p in BasicTree(folderData)
    ensures k in BasicTree(folderData)[p].children
        <==> k in Parents(folderData, RootKey) && Parents(folderData, RootKey)[k] == p
  {
    BasicTreeShape(folderData);
    EntriesKeys(folderData);
    if p == RootKey {
      assert RootKey !in Entries(folderData);
      TopIffParent(folderData, RootKey, k);
    } else {
      ChildIffParent(folderData, RootKey, p, k);
    }
  }

  /** With distinct paths, every key except the root appears in the children of exactly one
      entry, and the root appears in none. */
  lemma BasicTreeUniqueParent(folderData: seq<Item>, k: string)
    requires Distinct(AllPaths(folderData)) && RootKey !in AllPaths(folderData)
    requires k in BasicTree(folderData)
    ensures k != RootKey ==> exists p :: p in BasicTree(folderData) && k in BasicTree(folderData)[p].children
    ensures forall p, q ::
              (p in BasicTree(folderData) && q in BasicTree(folderData) &&
               k in BasicTree(folderData)[p].children && k in BasicTree(folderData)[q].children) ==> p == q
    ensures k == RootKey ==> forall p :: p in BasicTree(folderData) ==> k !in BasicTree(folderData)[p].children
  {
    var tree, parents := BasicTree(folderData), Parents(folderData, RootKey);
    ParentsKeys(folderData, RootKey);
    if k != RootKey {
      var p := parents[k];
      ParentsValue(folderData, RootKey, k);
      BasicTreeChildIffParent(folderData, p, k);
    }
    forall p, q | p in tree && q in tree && k in tree[p].children && k in tree[q].children
      ensures p == q
    {
      BasicTreeChildIffParent(folderData, p, k);
      BasicTreeChildIffParent(folderData, q, k);
    }
    if k == RootKey {
      forall p | p in tree
        ensures k !in tree[p].children
      {
        BasicTreeChildIffParent(folderData, p, k);
      }
    }
  }
}

=== FILE: graph.dfy ===
/** The records of the flow screen: React Flow nodes holding source text, their connection
    handles, and the edges between handles. */
module Graph {
  import opened Wrappers
  import opened Seqs

  /** A canvas coordinate. React Flow positions are JavaScript numbers; integers here. */
  datatype Pos = Pos(x: int, y: int) {
    function Plus(o: Pos): Pos { Pos(x + o.x, y + o.y) }
    function Minus(o: Pos): Pos { Pos(x - o.x, y - o.y) }
  }

  /** Making a position relative to an origin and back gives the position again. */
  lemma PlusUndoesMinus(a: Pos, b: Pos)
    ensures a.Minus(b).Plus(b) == a
  {
  }

  /** The `handleType` of a handle: `'function'` and `'selection'` are the two values the screen
      tests for; every other tag produced by handle extraction is kept as text. An `OtherType` tag
      is never `"function"` or `"selection"`: those are `FunctionType` and `SelectionType`. */
  datatype HandleType = FunctionType | SelectionType | OtherType(tag: string)

  /** A connection point derived from a declaration (`loc` gives its lines) or from a selection. */
  datatype Handle = Handle(
    id: string,
    nodeId: string,
    handleType: HandleType,
    name: string,
    startLine: int,
    endLine: int)

  /** The `type` of a React Flow node. */
  datatype NodeKind = Editor | Group | Settings | Preview

  /** The `data` record of an editor node. */
  datatype NodeData = NodeData(fileName: string, value: string, handles: seq<Handle>)

  /** A React Flow node; `position` is relative to the parent group when `parentId` is set. */
  datatype Node = Node(
    id: string,
    kind: NodeKind,
    position: Pos,
    parentId: Option<string>,
    data: NodeData)

  /** A React Flow edge between a source handle and a target handle. */
  datatype Edge = Edge(
    id: string,
    source: string,
    sourceHandle: string,
    target: string,
    targetHandle: string)

  /** The screen's state: the `nodes`, `edges` and `handles` state hooks. */
  datatype FlowState = FlowState(nodes: seq<Node>, edges: seq<Edge>, handles: seq<Handle>)

  /** The TypeErrors the callbacks raise when a lookup comes back `undefined` or `null`. */
  datatype Error = NodeNotFound | MissingHandle | MissingEditorElement

  /** JavaScript truthiness of `node.parentId`: `null`, `undefined` and `''` are all false. */
  predicate HasParent(n: Node)
  {
    n.parentId.Some? && n.parentId.value != ""
  }

  /** The `find` predicate `node => node.id === id`. */
  function IdIs(id: string): Node -> bool
  {
    (n: Node) => n.id == id
  }

  /** The `find` predicate for a handle id. */
  function HandleIdIs(id: string): Handle -> bool
  {
    (h: Handle) => h.id == id
  }

  /** The first node with the given id, as `nodes.find((node) => node.id === id)`. */
  function FindNode(nodes: seq<Node>, id: string): (r: Option<Node>)
    ensures r.Some? ==> r.value in nodes && r.value.id == id
    ensures r.None? <==> forall n :: n in nodes ==> n.id != id
    ensures r.Some? ==> exists i :: 0 <= i < |nodes| && nodes[i] == r.value && forall j :: 0 <= j < i ==> nodes[j].id != id
  {
    Find(nodes, IdIs(id))
  }

  /** The index of the node `FindNode` returns: no earlier node has its id. */
  lemma FoundAt(nodes: seq<Node>, id: string) returns (k: nat)
    requires FindNode(nodes, id).Some?
    ensures k < |nodes| && nodes[k] == FindNode(nodes, id).value && nodes[k].id == id
    ensures forall j :: 0 <= j < k ==> nodes[j].id != id
  {
    k :| 0 <= k < |nodes| && nodes[k] == FindNode(nodes, id).value && forall j :: 0 <= j < k ==> nodes[j].id != id;
  }

  /** Lists with the same ids, position by position, have the same ids to find. */
  lemma SameIdsSameFind(a: seq<Node>, b: seq<Node>, id: string)
    requires |a| == |b| && forall i :: 0 <= i < |a| ==> a[i].id == b[i].id
    ensures FindNode(a, id).Some? <==> FindNode(b, id).Some?
  {
    if FindNode(a, id).Some? {
      var k := FoundAt(a, id);
      assert b[k] in b;
    }
    if FindNode(b, id).Some? {
      var k := FoundAt(b, id);
      assert a[k] in a;
    }
  }

  /** `nodes.map((node) => node.id === id ? f(node) : node)`: the shape shared by every
      callback that edits one node. */
  function UpdateById(nodes: seq<Node>, id: string, f: Node -> Node): (r: seq<Node>)
    ensures |r| == |nodes|
    ensures forall i :: 0 <= i < |r| ==> r[i] == (if nodes[i].id == id then f(nodes[i]) else nodes[i])
  {
    if nodes == [] then []
    else [if nodes[0].id == id then f(nodes[0]) else nodes[0]] + UpdateById(nodes[1..], id, f)
  }
}

=== FILE: seqs.dfy ===
/** Order-preserving sequence combinators: the `filter`, `find` and stable `sort` that the
    callbacks of the flow screen are built from, with the laws the callbacks rely on. */
module Seqs {
  import opened Wrappers

  /** The predicate that holds exactly where `p` does not. */
  function Not<T(!new)>(p: T -> bool): T -> bool
  {
    x => !p(x)
  }

  /** The elements of `s` satisfying `p`, in their original order (`Array.prototype.filter`). */
  function Filter<T(!new)>(s: seq<T>, p: T -> bool): (r: seq<T>)
    ensures |r| <= |s|
    ensures forall x :: x in r <==> x in s && p(x)
    ensures forall i :: 0 <= i < |r| ==> p(r[i])
  {
    if s == [] then []
    else (if p(s[0]) then [s[0]] else []) + Filter(s[1..], p)
  }

  /** Filtering keeps every occurrence of a passing element and none of a failing one. */
  lemma {:induction false} FilterCounts<T(!new)>(s: seq<T>, p: T -> bool)
    ensures forall x :: multiset(Filter(s, p))[x] == if p(x) then multiset(s)[x] else 0
  {
    if s != [] {
      FilterCounts(s[1..], p);
      assert s == [s[0]] + s[1..];
      assert Filter(s, p) == (if p(s[0]) then [s[0]] else []) + Filter(s[1..], p);
    }
  }

  /** Filtering distributes over concatenation: this is what "order is preserved" means. */
  lemma {:induction false} FilterConcat<T(!new)>(a: seq<T>, b: seq<T>, p: T -> bool)
    ensures Filter(a + b, p) == Filter(a, p) + Filter(b, p)
  {
    if a == [] {
      assert a + b == b;
    } else {
      assert (a + b)[1..] == a[1..] + b;
      FilterConcat(a[1..], b, p);
    }
  }

  /** A sequence whose every element passes the filter is left as it is. */
  lemma {:induction false} FilterAllKept<T(!new)>(s: seq<T>, p: T -> bool)
    requires forall x :: x in s ==> p(x)
    ensures Filter(s, p) == s
  {
    if s != [] {
      FilterAllKept(s[1..], p);
    }
  }

  /** A sequence none of whose elements passes the filter is emptied. */
  lemma {:induction false} FilterNoneKept<T(!new)>(s: seq<T>, p: T -> bool)
    requires forall x :: x in s ==> !p(x)
    ensures Filter(s, p) == []
  {
    if s != [] {
      FilterNoneKept(s[1..], p);
    }
  }

  /** Filtering twice by the same predicate is filtering once. */
  lemma FilterIdempotent<T(!new)>(s: seq<T>, p: T -> bool)
    ensures Filter(Filter(s, p), p) == Filter(s, p)
  {
    FilterAllKept(Filter(s, p), p);
  }

  /** A weaker filter applied first does not change the result of a stronger one. */
  lemma {:induction false} FilterNarrowing<T(!new)>(s: seq<T>, p: T -> bool, q: T -> bool)
    requires forall x :: q(x) ==> p(x)
    ensures Filter(Filter(s, p), q) == Filter(s, q)
  {
    if s != [] {
      FilterNarrowing(s[1..], p, q);
      FilterConcat(if p(s[0]) then [s[0]] else [], Filter(s[1..], p), q);
    }
  }

  /** The elements of `s` satisfying `p` and those that do not together make up `s`. */
  lemma FilterSplitsMultiset<T(!new)>(s: seq<T>, p: T -> bool)
    ensures multiset(Filter(s, p)) + multiset(Filter(s, Not(p))) == multiset(s)
  {
    FilterCounts(s, p);
    FilterCounts(s, Not(p));
    forall x ensures (multiset(Filter(s, p)) + multiset(Filter(s, Not(p))))[x] == multiset(s)[x] {
      assert Not(p)(x) == !p(x);
    }
  }

  /** The first element of `s` satisfying `p` (`Array.prototype.find`). */
  function Find<T(!new)>(s: seq<T>, p: T -> bool): (r: Option<T>)
    ensures r.Some? ==> r.value in s && p(r.value)
    ensures r.None? <==> forall x :: x in s ==> !p(x)
    ensures r.Some? ==> exists i :: 0 <= i < |s| && s[i] == r.value && forall j :: 0 <= j < i ==> !p(s[j])
  {
    if s == [] then None
    else if p(s[0]) then Some(s[0])
    else
      var r := Find(s[1..], p);
      assert r.Some? ==> exists i :: 0 <= i < |s| - 1 && s[1..][i] == r.value && forall j :: 0 <= j < i ==> !p(s[1..][j]);
      r
  }

  /** Every element satisfying `p` comes before every element that does not. */
  ghost predicate SortedBy<T(!new)>(s: seq<T>, p: T -> bool)
  {
    forall i, j :: 0 <= i < j < |s| ==> !(!p(s[i]) && p(s[j]))
  }

  /** A stable sort by the two-valued key `p`, `p`-elements first: what `Array.prototype.sort`
      (stable since ECMAScript 2019) computes for a comparator that only compares `p`. */
  function StablePartition<T(!new)>(s: seq<T>, p: T -> bool): (r: seq<T>)
    ensures multiset(r) == multiset(s)
    ensures SortedBy(r, p)
    ensures Filter(r, p) == Filter(s, p) && Filter(r, Not(p)) == Filter(s, Not(p))
  {
    PartitionLaws(s, p);
    Filter(s, p) + Filter(s, Not(p))
  }

  /** The laws behind `StablePartition`, proved once for its defining expression. */
  lemma PartitionLaws<T(!new)>(s: seq<T>, p: T -> bool)
    ensures multiset(Filter(s, p) + Filter(s, Not(p))) == multiset(s)
    ensures SortedBy(Filter(s, p) + Filter(s, Not(p)), p)
    ensures Filter(Filter(s, p) + Filter(s, Not(p)), p) == Filter(s, p)
    ensures Filter(Filter(s, p) + Filter(s, Not(p)), Not(p)) == Filter(s, Not(p))
  {
    var a, b := Filter(s, p), Filter(s, Not(p));
    FilterSplitsMultiset(s, p);
    SortedConcat(a, b, p);
    FilterConcat(a, b, p);
    FilterConcat(a, b, Not(p));
    FilterAllKept(a, p);
    FilterNoneKept(b, p);
    FilterNoneKept(a, Not(p));
    FilterAllKept(b, Not(p));
  }

  /** Putting a block of `p`-elements before a block of others gives a sequence sorted by `p`. */
  lemma SortedConcat<T(!new)>(a: seq<T>, b: seq<T>, p: T -> bool)
    requires forall i :: 0 <= i < |a| ==> p(a[i])
    requires forall i :: 0 <= i < |b| ==> Not(p)(b[i])
    ensures SortedBy(a + b, p)
  {
    forall i, j | 0 <= i < j < |a + b| ensures !(!p((a + b)[i]) && p((a + b)[j])) {
      if i < |a| {
        assert (a + b)[i] == a[i];
      } else {
        assert (a + b)[j] == b[j - |a|];
      }
    }
  }

  /** A sequence sorted by `p` is its `p`-elements followed by the rest. */
  lemma {:induction false} SortedSplits<T(!new)>(r: seq<T>, p: T -> bool)
    requires SortedBy(r, p)
    ensures r == Filter(r, p) + Filter(r, Not(p))
  {
    if r != [] {
      if p(r[0]) {
        assert SortedBy(r[1..], p) by {
          forall i, j | 0 <= i < j < |r| - 1
            ensures !(!p(r[1..][i]) && p(r[1..][j]))
          {
            assert r[1..][i] == r[i + 1] && r[1..][j] == r[j + 1];
          }
        }
        SortedSplits(r[1..], p);
      } else {
        forall x | x in r ensures !p(x) {
          var k :| 0 <= k < |r| && r[k] == x;
          if k > 0 {
            assert !(!p(r[0]) && p(r[k]));
          }
        }
        FilterNoneKept(r, p);
        FilterAllKept(r, Not(p));
      }
    }
  }

  /** The stable partition is the ONLY arrangement that is sorted by `p` and keeps the relative
      order of each class: any sort satisfying both computes exactly `StablePartition`. */
  lemma StablePartitionUnique<T(!new)>(s: seq<T>, r: seq<T>, p: T -> bool)
    requires SortedBy(r, p)
    requires Filter(r, p) == Filter(s, p) && Filter(r, Not(p)) == Filter(s, Not(p))
    ensures r == StablePartition(s, p)
  {
    SortedSplits(r, p);
  }

  /** `a` occurs in `b` in order, possibly with gaps (greedy left-to-right matching). */
  predicate IsSubsequence<T(==)>(a: seq<T>, b: seq<T>)
    decreases |b|
  {
    if a == [] then true
    else if b == [] then false
    else if a[0] == b[0] then IsSubsequence(a[1..], b[1..])
    else IsSubsequence(a, b[1..])
  }

  /** Filtering keeps the surviving elements in their original relative order. */
  lemma {:induction false} FilterIsSubsequence<T(!new)>(s: seq<T>, p: T -> bool)
    ensures IsSubsequence(Filter(s, p), s)
  {
    if s != [] {
      FilterIsSubsequence(s[1..], p);
      var r := Filter(s, p);
      if p(s[0]) {
        assert r[1..] == Filter(s[1..], p);
      } else {
        assert r == Filter(s[1..], p);
        if r != [] {
          assert p(r[0]);
        }
      }
    }
  }

  /** No element occurs twice. */
  predicate Distinct<T(==)>(s: seq<T>)
  {
    forall i, j :: 0 <= i < j < |s| ==> s[i] != s[j]
  }

  /** A concatenation without repeats is made of two repeat-free, disjoint halves. */
  lemma DistinctConcat<T(!new)>(a: seq<T>, b: seq<T>)
    requires Distinct(a + b)
    ensures Distinct(a) && Distinct(b)
    ensures forall x :: x in a ==> x !in b
  {
    assert forall i :: 0 <= i < |a| ==> (a + b)[i] == a[i];
    assert forall j :: 0 <= j < |b| ==> (a + b)[|a| + j] == b[j];
    forall x | x in a ensures x !in b {
      var i :| 0 <= i < |a| && a[i] == x;
    }
  }

  /** The three-part version of `DistinctConcat`. */
  lemma DistinctConcat3<T(!new)>(a: seq<T>, b: seq<T>, c: seq<T>)
    requires Distinct(a + b + c)
    ensures Distinct(a) && Distinct(b) && Distinct(c)
    ensures forall x :: x in a ==> x !in b && x !in c
    ensures forall x :: x in b ==> x !in c
  {
    DistinctConcat(a + b, c);
    DistinctConcat(a, b);
    forall x | x in a ensures x !in c {
      assert x in a + b;
    }
    forall x | x in b ensures x !in c {
      assert x in a + b;
    }
  }
}

=== FILE: wrappers.dfy ===
/** `Option` and `Result`, for JavaScript's `undefined` and thrown TypeErrors. */
module Wrappers {

  /** A value that may be missing: `Array.prototype.find` returning `undefined`, or a `null` field. */
  datatype Option<+T> = None | Some(value: T)

  /** The outcome of a callback: a new state, or the error the JavaScript code would have thrown. */
  datatype Result<+R, +E> = Success(value: R) | Failure(error: E)
}
